=== FILE: README.md ===
# Kubernetes web client back end — a Dafny model

This project models the Go back end of a web client for Kubernetes
workspaces:

- **The sign-in gateway.** The session gate in front of every protected
  route. The OAuth 2.0 / OpenID Connect flow: `/auth` writes a random state
  cookie and redirects to the provider, and the callback checks the state,
  exchanges the code, verifies the ID token, finds or creates the user and
  writes the session.
- **The workspace handlers.** Create, delete and list the signed-in user's
  workspaces, with the form validation and the parsing of the id.
- **The configuration readers.** The API server's configuration, the OAuth
  client and provider, and the Kubernetes configuration, all read from the
  process environment.
- **Back-end selection and the Kubernetes controller.** The choice of
  workload back end, the construction of the Kubernetes controller from its
  configuration. The controller's four operations have empty bodies and
  are not modelled.

Everything is a pure function. What the handlers ask of the outside world
is handed in as an outcome value:

- the provider's token exchange and ID-token verification;
- the repository's answers;
- the random bytes of the state;
- provider discovery;
- the Kubernetes client library.

Each handler reports the calls it made, as a trace of steps or as the
parameters it passed, so the model can state what is called, with what
arguments, and what is never reached. The process environment is a map,
and a missing variable reads as "". Two parts of the Go standard library
are modelled from their documented behaviour:

- `strconv.Atoi`, including the sign, the 64-bit range and the two error
  kinds;
- `encoding/base64`, with the standard and URL-safe alphabets, padding, and
  the decoder skipping line breaks.

Modules:

- `Common`: the environment, `FirstEmpty` (the first unset variable, which
  every reader checks in order), ASCII lower-casing and UTF-8 length;
- `Strconv`: `Atoi`, `Itoa` and the int32 narrowing;
- `Base64`: encoding and decoding;
- `Http` and `Repository`: replies, cookies and the repository's records
  and outcomes;
- `Auth`, `Workspaces`, `ApiConfig`, `OAuth`, `Kube`, `Controllers`: the
  Go packages.

## Model

| member | source | states |
|---|---|---|
| Common.FirstEmpty | backend/pkg/api/config.go:43-56 | the index reported is of an unset variable with every earlier one set, and nothing is reported exactly when all are set |
| Common.Lower | backend/pkg/api/config.go:25 | lower-casing, also used on CLUSTER_TYPE at backend/pkg/controller/controller.go:23, keeps the length and maps every character on its own, ASCII capitals to small letters |
| Common.Utf8Len | backend/pkg/api/workspace.go:27 | the byte count of a string lies between its number of characters and four times that, and equals it for ASCII text |
| Strconv.AtoiSpec | backend/pkg/api/workspace.go:77-82 | Atoi succeeds exactly on an optionally signed, non-empty run of decimal digits whose value lies in the 64-bit range, and returns that value |
| Strconv.ScanUint | backend/pkg/api/workspace.go:77 | the digit loop's result is never below the value already accumulated and never above the largest uint64; Strconv.ScanUintSpec gives the full characterisation |
| Strconv.ScanDigitsNoSyntax | backend/pkg/api/workspace.go:77 | on a string of digits the loop never reports a syntax error, only a value or a range error |
| Strconv.Atoi | backend/pkg/api/workspace.go:77-82 | a successful reading lies in the int64 range and is negative only for text with a leading minus; Strconv.AtoiSpec gives the full characterisation |
| Strconv.AtoiItoa | backend/pkg/api/workspace.go:77 | every 64-bit integer written in decimal reads back as itself |
| Strconv.AtoiOutOfRange | backend/pkg/api/workspace.go:77-82 | a digit string above the int64 range, of any length, is a range error, not a syntax error |
| Strconv.AtoiErrorText | backend/pkg/api/config.go:36-39 | the error text begins "strconv.Atoi: parsing" followed by the quoted input |
| Strconv.AtoiErrorTextIdentifies | backend/pkg/api/config.go:36-39 | two error texts are equal only for the same input and the same kind of failure |
| Strconv.ScanUintSpec | backend/pkg/api/config.go:36 | the digit scan succeeds exactly on all-digit text whose value fits in 64 unsigned bits, and yields that value |
| Strconv.Int32 | backend/pkg/api/workspace.go:87 | the int32 conversion keeps the value modulo 2^32 |
| Strconv.Int32Zero | backend/pkg/api/auth.go:21-23 | a stored id narrows to 0 exactly when it is a multiple of 2^32 |
| Strconv.Int32Identity | backend/pkg/api/workspace.go:87 | values in the int32 range are unchanged by the conversion |
| Base64.RoundTrip | backend/pkg/api/auth.go:58-59 | decoding the encoding of any bytes, in either alphabet, gives the bytes back |
| Base64.Encode | backend/pkg/api/auth.go:59 | the encoding is whole four-character quanta, empty exactly for empty input, and keeps the unused bits of a padded last quantum zero (section 3.5 of RFC 4648); Base64.RoundTrip gives its inverse and Base64.EncodeCanonical its uniqueness |
| Base64.EncodeCanonical | backend/pkg/api/auth.go:59 | a text that decodes to some bytes and keeps its pad bits zero is the encoding of those bytes: the encoder writes the only such text |
| Base64.StdDecodeEncode | backend/pkg/controller/kube/controller.go:19 | the standard decoder, line breaks included, inverts the standard encoder |
| Base64.EncodeLength | backend/pkg/api/auth.go:58-59 | the encoding is four characters per started group of three bytes |
| Base64.EncodeShape | backend/pkg/api/auth.go:58-59 | the encoding is alphabet characters followed by exactly the padding the length calls for |
| Base64.EncodeTwoPads | backend/pkg/api/auth.go:55-59 | input one byte past a multiple of three encodes as alphabet characters ending in two pad characters, the last alphabet character standing for a multiple of 16 |
| Base64.LineBreaksIgnored | backend/pkg/controller/kube/controller.go:19 | a CR or LF anywhere in the text does not change what it decodes to |
| Base64.DecodeLength | backend/pkg/controller/kube/controller.go:19-22 | text that decodes has a multiple of four characters and yields between 3n-2 and 3n bytes for n quanta |
| Base64.DecodeString | backend/pkg/controller/kube/controller.go:19-22 | text that decodes is, without its line breaks, whole quanta, and yields three bytes per quantum less at most two for padding |
| Base64.DecodeQuanta | backend/pkg/controller/kube/controller.go:19-22 | line-break-free text that decodes holds only alphabet characters, except for padding in its last two places |
| Base64.CorruptPaddingExamples | backend/pkg/controller/kube/controller.go:19-22 | missing padding, padding inside a quantum and a lone data character are refused |
| Base64.DecodeExamples | backend/pkg/controller/kube/controller.go:19 | the empty text, a padded quantum and the same quantum split by line breaks decode as expected |
| Auth.AuthMiddleware | backend/pkg/api/auth.go:18-34 | the gate aborts with 401 and message "unauthorized" exactly when the stored id narrows to int32 zero; otherwise it passes on a non-zero user congruent to the stored id modulo 2^32 |
| Auth.GetInt | backend/pkg/api/auth.go:21 | the session read gives the stored int, or 0 when "user" is unset or holds another type |
| Auth.MiddlewareAdmitsStoredId | backend/pkg/api/auth.go:21-31 | an int32 id the callback stored, if non-zero, passes the gate as exactly that user |
| Auth.GenerateOauthState | backend/pkg/api/auth.go:53-60 | the state is 24 characters: 22 URL-safe alphabet characters, the last a multiple of 16, and two pads, and it decodes back to the 16 random bytes |
| Auth.OauthStateDetermined | backend/pkg/api/auth.go:53-60 | any text with those properties is the state generated from the same bytes, so the contract fixes the state exactly |
| Auth.CookieValue | backend/pkg/api/auth.go:67 | reading the state cookie gives the empty string exactly when the cookie is absent or empty |
| Auth.AbsentCookieLikeCleared | backend/pkg/api/auth.go:64-76 | the callback answers a request without the state cookie exactly as one carrying the cleared cookie |
| Auth.AuthStepsRun | backend/pkg/api/auth.go:67-107 | the authentication stops after the state comparison, the exchange, the ID-token extraction or the verification exactly when that step fails, and otherwise runs all six steps |
| Auth.AuthHandler | backend/pkg/api/auth.go:37-49 | the "oauthstate" cookie carries the generated state for a year, on path "/", on the configured domain, secure and HTTP-only, and the reply is a 302 to the provider's URL for that state |
| Auth.Authenticate | backend/pkg/api/auth.go:67-107 | authentication clears the cookie and compares the state first, runs its steps in order, and stops at the first step that fails: the steps run are exactly the prefix of the six up to the failure (2 on a state mismatch, 3 on a failed exchange, 4 on a missing ID token, 5 on a rejected token); it succeeds exactly when the state matches and every provider step succeeds |
| Auth.SignInUser | backend/pkg/api/auth.go:110-132 | the user is looked up first; a session is written exactly when the lookup finds the user (its id) or finds no row and creation succeeds (the id for a new user), always as the last step and with the 308 to the front end; a failed lookup answers 500 "unable to retrieve user information" and a failed creation 500 "unable to add user to database"; CreateUser runs exactly when the lookup finds no row |
| Auth.Callback | backend/pkg/api/auth.go:64-133 | the cookie is cleared whatever happens; the reply is a 307 to /auth exactly when the state or a provider step fails, and then the steps run are exactly those up to the failing one; otherwise all six authentication steps run before the repository stage; a session is written exactly when the reply is the 308 to the front end, as the last step; a JSON reply is a 500 without a session |
| Auth.CallbackWith | backend/pkg/api/auth.go:64-133 | the callback parameterised by the id a newly created user receives: every property stated of Auth.Callback holds for any such id |
| Auth.SignedIn | backend/pkg/api/auth.go:109-132 | once the provider steps succeed, the repository steps follow them in order and the cookie stays cleared; a session is written exactly when the reply is the 308 redirect to the front end, and it is the trace's last step; every JSON reply is a 500 without a session |
| Auth.StateMismatchRejected | backend/pkg/api/auth.go:72-76 | a state that differs from the cookie is sent back to /auth with no exchange and no session |
| Auth.EmptyStatePassesWithoutCookie | backend/pkg/api/auth.go:67-72 | with no cookie or a cleared one, an empty state passes the comparison and the code is exchanged |
| Auth.ProviderFailureRedirects | backend/pkg/api/auth.go:78-107 | any failed provider step redirects to /auth with no session; the trace ends at the step that failed (the exchange, the ID-token extraction, the verification, or the claims decoding) and the repository is never consulted |
| Auth.RepositoryFailureAnswers500 | backend/pkg/api/auth.go:110-125 | a failed lookup or a failed creation answers 500 with its own message and writes no session |
| Auth.KnownUserSignsIn | backend/pkg/api/auth.go:110-132 | a known user's id is written to the session and the browser goes to the front end with a 308 |
| Auth.StateIsSingleUse | backend/pkg/api/auth.go:68-76 | after any callback, a second callback carrying the cleared cookie refuses every non-empty state |
| Auth.KnownUserRoundTrip | backend/pkg/api/auth.go:37-133 | the state written by /auth is accepted by the callback, and the known user's session then passes the gate as that user |
| Auth.NewUserSessionRejected | backend/pkg/api/auth.go:110-129 | a first sign-in stores the id 0 of the failed lookup, which the gate refuses |
| Auth.SignedInIdOnlyInSession | backend/pkg/api/auth.go:109-132 | the id given to a new user reaches only the final session write of the repository stage: two results that differ in it agree on the reply, the cookie, whether a session is written and every earlier step, and are equal unless the lookup found no row |
| Auth.NewUserIdOnlyInSession | backend/pkg/api/auth.go:64-133 | the same for the whole callback, for any two ids given to a new user |
| Auth.CallbackFixed | backend/pkg/api/auth.go:110-129 | with the created row's id stored, any session written holds the id of the row found or created; outside a first sign-in the result is the callback's, and on one the reply, the cookie, whether a session is written and every step before the final session write are the callback's |
| Auth.FixedNewUserAdmitted | backend/pkg/api/auth.go:110-129 | with the correction, a new user's session passes the gate as that user |
| Auth.ClearedCookieAdmitsEmptyState | backend/pkg/api/auth.go:67-76 | the cleared cookie left by any earlier callback matches an empty state, so a callback carrying another code and no state exchanges that code and signs the browser in |
| Auth.CallbackRequiringState | backend/pkg/api/auth.go:67-76 | refusing a missing or cleared cookie sends the request to /auth with no exchange and no session; otherwise the callback is unchanged |
| Auth.RequiringStateRefusesReplay | backend/pkg/api/auth.go:37-76 | with the correction, the state /auth writes is still accepted, and a replay after it is refused whatever state it carries |
| Workspaces.Valid | backend/pkg/api/workspace.go:24-32 | the only possible problem is "name", and it is reported, with its message, exactly when the name takes at most two UTF-8 bytes |
| Workspaces.ValidExamples | backend/pkg/api/workspace_test.go:15-16 | "test" has no problems and "" has the name problem |
| Workspaces.ValidDisagreesWithMessage | backend/pkg/api/workspace.go:27-28 | the two-character name "ab" is refused, and the one-character, three-byte name "€" is accepted |
| Workspaces.ValidFixed | backend/pkg/api/workspace.go:27-28 | the corrected check reports only the name problem, with its message |
| Workspaces.ValidFixedMatchesMessage | backend/pkg/api/workspace.go:27-28 | the corrected check accepts exactly names of at least two characters, and agrees with the original on ASCII names of other lengths than two |
| Workspaces.BindForm | backend/pkg/api/workspace.go:41-42 | the bound name is empty exactly when the body does not bind or binds an empty name |
| Workspaces.UnboundBodyRefused | backend/pkg/api/workspace.go:41-48 | a body that does not bind is answered 400 with the name problem, and no workspace is created |
| Workspaces.PostWorkspace | backend/pkg/api/workspace.go:36-68 | the creation call is made exactly when the form is valid, owned by the session user and with the bound name; an invalid form answers 400 with its problems; a created row answers 200 with the workspace; a failed creation answers 500 "error creating workspace"; a duplicate name answers the 400 "already exists" reply followed by that 500 |
| Workspaces.PostWith | backend/pkg/api/workspace.go:36-68 | the create handler with or without a return after the duplicate-name reply: one or two replies, the call made exactly for a valid form, and each outcome's exact reply |
| Workspaces.DuplicateNameWritesTwice | backend/pkg/api/workspace.go:58-64 | a duplicate name writes the 400 "already exists" reply and then the 500 reply, and the client sees 400 |
| Workspaces.PostWorkspaceFixed | backend/pkg/api/workspace.go:58-64 | with the return restored, every request gets exactly one reply, a duplicate gets only the 400, and other outcomes are unchanged |
| Workspaces.GatedPostOwnedBySessionUser | backend/pkg/api/workspace.go:38-54 | behind the gate, a created workspace is owned by the non-zero id from the session |
| Workspaces.DeleteWorkspace | backend/pkg/api/workspace.go:72-103 | the deletion call is made exactly when Atoi accepts the id, for the session user and with the id modulo 2^32; a bad id answers 400 "invalid ID param"; after the call, no row answers 404 "workspace not found", a failure 500 "error removing workspace", and success 200 with no body |
| Workspaces.DeleteWith | backend/pkg/api/workspace.go:78-102 | given a parsed id or a parse error: the call is made exactly for a parsed id, for the session user, and each repository answer gets its exact reply |
| Workspaces.ParseIdAsWritten | backend/pkg/api/workspace.go:77-87 | the id is accepted exactly when Atoi accepts it, and is Atoi's value modulo 2^32 |
| Workspaces.DeleteTargetsNamedWorkspace | backend/pkg/api/workspace.go:76-90 | every int32 id, written in decimal, deletes exactly that workspace of the caller |
| Workspaces.OutOfRangeIdAliases | backend/pkg/api/workspace.go:77-88 | the id k + 2^32, outside the int32 range, is not refused and deletes the caller's workspace k |
| Workspaces.ParseIdFixed | backend/pkg/api/workspace.go:77-87 | the corrected parse accepts exactly Atoi's readings in the int32 range, unchanged |
| Workspaces.DeleteWorkspaceFixed | backend/pkg/api/workspace.go:77-88 | with a range-checked parse, a deletion targets exactly the id the request wrote, for the session user |
| Workspaces.DeleteFixedAgreesInRange | backend/pkg/api/workspace.go:77-88 | the corrected handler agrees with the original on every id in the int32 range and refuses every other |
| Workspaces.GetWorkspaces | backend/pkg/api/workspace.go:107-118 | the session user's workspaces are listed with 200; a failure answers 500 with the source's message |
| ApiConfig.Environment | backend/pkg/api/config.go:25-28 | the environment is "production" exactly when ENV lower-cases to "production", and "development" otherwise |
| ApiConfig.ReadPort | backend/pkg/api/config.go:30-41 | an empty PORT gives 8080; otherwise the port is Atoi's reading, and its failure is reported with the text and Atoi's error |
| ApiConfig.NewConfigFromEnv | backend/pkg/api/config.go:23-68 | it succeeds exactly when the port reads and API_URL, APP_URL and DOMAIN are set; a port error comes first, then the first unset variable's message; on success every field comes from its variable |
| ApiConfig.EnvironmentIgnoresCase | backend/pkg/api/config.go:25 | ENV "Production" selects production |
| ApiConfig.NewConfigNormal | backend/pkg/api/config_test.go:21 | the first row of the package's test table gives the expected configuration |
| ApiConfig.NewConfigMissingEnv | backend/pkg/api/config_test.go:22 | a missing ENV gives development |
| ApiConfig.NewConfigMissingPort | backend/pkg/api/config_test.go:23 | a missing PORT gives 8080 |
| ApiConfig.NewConfigRefuses | backend/pkg/api/config_test.go:24-26 | each missing URL or domain is reported with its own message |
| OAuth.NewConfigAndProviderFromEnv | backend/pkg/oauth/config.go:13-52 | discovery is attempted, for ISSUER, exactly when the four variables are set; the first unset one is reported; a discovery failure is wrapped; on success the client uses the callback URL, id, secret, the scopes openid and email, and the provider's endpoint |
| OAuth.ReadWith | backend/pkg/oauth/config.go:13-52 | the reader for any table of per-variable messages: the first unset variable's message, discovery only for a complete environment, and the configuration built from the variables and the provider |
| OAuth.MissingClientIdReportsSecret | backend/pkg/oauth/config.go:16-24 | a missing client id and a missing client secret report the same error, the client secret's |
| OAuth.NewConfigAndProviderFromEnvFixed | backend/pkg/oauth/config.go:16-19 | with the client id's own message, each unset variable reports its message, and a complete environment behaves as before |
| OAuth.FixedErrorIdentifiesVariable | backend/pkg/oauth/config.go:16-34 | with the correction, equal errors for unset variables mean the same variable is unset |
| OAuth.NormalConfig | backend/pkg/oauth/config_test.go:14-39 | the package's accepting test row gives the expected client configuration and provider |
| Kube.NewKubeConfigFromEnv | backend/pkg/controller/kube/config.go:16-51 | it succeeds exactly when the five variables are set, reports the first unset one's message, and otherwise copies each field from its variable |
| Kube.KubeConfigNormal | backend/pkg/controller/kube/config_test.go:21 | the accepting test row gives the expected configuration |
| Kube.KubeConfigMissing | backend/pkg/controller/kube/config_test.go:22-26 | with exactly one variable unset, its own message is reported |
| Kube.ApiServerUrl | backend/pkg/controller/kube/controller.go:26 | the URL is "https://", the host, ":" and the port, in that order |
| Kube.NewKubeController | backend/pkg/controller/kube/controller.go:17-46 | the client library is called exactly when the certificate decodes as standard base 64, with the API server URL, the token, TLS verification on and the decoded bytes; its failure is wrapped; success keeps the clientset and the namespace |
| Kube.CertificateRoundTrip | backend/pkg/controller/kube/controller.go:19-31 | a certificate written in standard base 64 reaches the TLS settings as exactly the bytes it encodes, with verification on |
| Kube.CertificateLineBreaksIgnored | backend/pkg/controller/kube/controller.go:19 | line breaks in the certificate text change nothing |
| Controllers.NewControllerFromEnv | backend/pkg/controller/controller.go:21-46 | an empty cluster type and an unknown one are refused with their messages; "kubernetes" passes through the configuration's and the construction's errors, and otherwise yields the Kubernetes controller; success implies the Kubernetes type |
| Controllers.ClusterTypeIgnoresCase | backend/pkg/controller/controller.go:23-30 | the cluster type "Kubernetes" selects the Kubernetes back end |
| Controllers.KubernetesStartup | backend/pkg/controller/controller.go:30-42 | with a complete Kubernetes environment, startup succeeds exactly when the certificate decodes and the clientset is built, and the controller serves the pod's namespace |

## Left out

- Logging, the gin context, route registration and server start-up are not
  modelled. The handlers take what they read from the request as
  parameters.
- Cookie values are the cookies' logical values. The framework's
  query-escaping of the value into the Set-Cookie header (the state's
  "==" travels as "%3D%3D") and the unescaping when it is read back are
  not modelled.
- The session store library is a parameter: the value stored under "user"
  and the call that writes it. Its 24-hour lifetime and its cookie encoding
  are not modelled.
- The OAuth and OpenID Connect libraries are outcome values. This covers
  the token exchange, the `id_token` extra, verification and claims
  decoding. The provider URL built by `AuthCodeURL` is named by the state it
  carries, not spelled out.
- `crypto/rand` is a parameter: the 16 random bytes. The error of
  `rand.Read`, which the source ignores, is not modelled.
- The repository's SQL and its generated code are outcome values.
  CreateUser returns only an error in the source; the row it would insert
  is an extra outcome that only Auth.CallbackFixed reads, which assumes a
  CreateUser returning the new row (or a second lookup). Only the
  unique-violation error code is distinguished among creation errors.
- The other handlers (`user.go`), the older `handler`/`api` packages and
  the front end are not part of this model.
- Go's `(value, error)` pairs are a `Result`, so "exactly one of the two is
  non-nil" holds by construction and is not stated.
- Strconv.AtoiErrorText: the quoting of the offending text by
  `strconv.Quote` is not modelled. The text is inserted unescaped, which
  differs from Go for text with quotes, backslashes, non-printable
  characters or invalid UTF-8.
- Kube.NewKubeController: the decode-failure error promises only its fixed
  prefix. Go follows it with the bytes decoded before the fault, printed
  with `%v`, and the model does not reproduce that partial decoding.
- Common.Lower: lower-cases ASCII letters only. Go's `strings.ToLower`
  also maps non-ASCII letters, for example the Kelvin sign to "k", so
  "KUBERNETES" spelled with a Kelvin sign is not recognised here.
- ApiConfig.ReadPort: the port is not range-checked, and neither is it in
  the source. Any 64-bit value is accepted.
- The controller's four operations (GetWorkspacePodStatus,
  GetWorkspaceVolumeStatus, CreateWorkspacePod, CreateWorkspaceVolume) have
  empty bodies, so there is nothing to model.
- Strings are sequences of Unicode scalar values, while Go's strings are
  byte strings. A bound name, a cookie or an environment value that is not
  valid UTF-8 cannot be represented, and `len` is modelled as the UTF-8
  length of the characters (Common.Utf8Len), which is what `valid` counts.
- Writing a reply after an earlier one is modelled as a list of replies.
  The first one fixes the status the client sees (Http.EffectiveStatus),
  and the bodies are concatenated by the framework, which is not modelled.

## Findings

| source | as written | input that shows it | evidently intended | confidence | as-written member | corrected member |
|---|---|---|---|---|---|---|
| backend/pkg/api/auth.go:110-129 | after a failed lookup, CreateUser (which returns only an error) inserts the user, and the zero `user` left by the failed lookup is written to the session | first sign-in of a new e-mail: session "user" = 0, which the gate answers with 401 | store the new user's id, from a CreateUser that returns the row or a second lookup | high (not executed) | Auth.NewUserSessionRejected | Auth.CallbackFixed, Auth.FixedNewUserAdmitted |
| backend/pkg/api/auth.go:67-76 | an absent cookie and the cleared cookie both read as "", which an absent `state` parameter equals | a callback with no `state` after any earlier callback, which left `oauthstate=""` for a year, is accepted and its code exchanged | refuse the callback when the cookie holds no state | medium (not executed) | Auth.ClearedCookieAdmitsEmptyState | Auth.CallbackRequiringState, Auth.RequiringStateRefusesReplay |
| backend/pkg/api/workspace.go:60-64 | the duplicate-name reply has no `return`, so the 500 reply is written after it | creating a workspace whose name exists: 400 with two bodies | return after the 400 reply | high (not executed) | Workspaces.DuplicateNameWritesTwice | Workspaces.PostWorkspaceFixed |
| backend/pkg/api/workspace.go:27 | `len(f.Name) <= 2` counts bytes and refuses length 2 | "ab" (2 characters) is refused; "€" (1 character, 3 bytes) is accepted | refuse names of fewer than 2 characters | high (not executed) | Workspaces.ValidDisagreesWithMessage | Workspaces.ValidFixed, Workspaces.ValidFixedMatchesMessage |
| backend/pkg/api/workspace.go:77-88 | the id is parsed as a 64-bit int and narrowed to int32 without a range check | DELETE of id 4294967297 deletes workspace 1 | refuse ids outside the int32 range | medium (not executed) | Workspaces.OutOfRangeIdAliases | Workspaces.DeleteWorkspaceFixed, Workspaces.DeleteFixedAgreesInRange |
| backend/pkg/oauth/config.go:16-19 | a missing OAUTH_CLIENT_ID reports "OAuth client secret must be specified" | environment without OAUTH_CLIENT_ID | a message naming the client id | high (not executed) | OAuth.MissingClientIdReportsSecret | OAuth.NewConfigAndProviderFromEnvFixed, OAuth.FixedErrorIdentifiesVariable |

=== FILE: api_config.dfy ===
/** The API server's configuration, read from the process environment:
    the deployment environment, the listening port, the back-end and
    front-end URLs and the cookie domain. */
module ApiConfig {
  import opened Common
  import opened Strconv

  datatype Config = Config(
    environment: string,
    port: int,
    backendURL: string,
    frontendURL: string,
    domain: string)

  const DefaultPort: int := 8080

  /** The variables that must be set, in the order they are checked, and
      the error each one reports when it is empty. */
  const RequiredKeys: seq<string> := ["API_URL", "APP_URL", "DOMAIN"]
  const RequiredMessages: seq<string> :=
    ["API URL must be specified", "app URL must be specified", "domain must be specified"]

  /** ENV, lower-cased; anything but "production" means "development". */
  function Environment(env: Env): (e: string)
    ensures e == "production" || e == "development"
    ensures e == "production" <==> Lower(Getenv(env, "ENV")) == "production"
  {
    var e := Lower(Getenv(env, "ENV"));
    if e != "production" then "development" else e
  }

  /** PORT: 8080 when empty, otherwise its Atoi reading. The value is not
      range-checked. */
  function ReadPort(env: Env): (r: Result<int, string>)
    ensures Getenv(env, "PORT") == "" ==> r == Ok(8080)
    ensures Getenv(env, "PORT") != "" ==> (r.Ok? <==> Atoi(Getenv(env, "PORT")).Ok?)
    ensures Getenv(env, "PORT") != "" && r.Ok? ==> r.value == Atoi(Getenv(env, "PORT")).value
    ensures r.Err? ==> var p := Getenv(env, "PORT");
      r.error == "unable to load port " + p + ": " + AtoiErrorText(p, Atoi(p).error)
  {
    var portString := Getenv(env, "PORT");
    if portString == "" then Ok(DefaultPort)
    else match Atoi(portString)
      case Err(e) => Err("unable to load port " + portString + ": " + AtoiErrorText(portString, e))
      case Ok(port) => Ok(port)
  }

  /** NewConfigFromEnv: a malformed PORT is reported first, then the first
      of API_URL, APP_URL and DOMAIN that is empty; otherwise every field
      is copied from its variable. */
  function NewConfigFromEnv(env: Env): (r: Result<Config, string>)
    ensures r.Ok? <==> ReadPort(env).Ok? && FirstEmpty(env, RequiredKeys).None?
    ensures ReadPort(env).Err? ==> r == Err(ReadPort(env).error)
    ensures ReadPort(env).Ok? && FirstEmpty(env, RequiredKeys).Some?
            ==> r == Err(RequiredMessages[FirstEmpty(env, RequiredKeys).value])
    ensures r.Ok? ==> r.value == Config(Environment(env), ReadPort(env).value,
                                        Getenv(env, "API_URL"), Getenv(env, "APP_URL"), Getenv(env, "DOMAIN"))
  {
    var environment := Environment(env);
    assert RequiredKeys[0] == "API_URL" && RequiredKeys[1] == "APP_URL" && RequiredKeys[2] == "DOMAIN";
    match ReadPort(env)
    case Err(e) => Err(e)
    case Ok(port) =>
      var apiUrl := Getenv(env, "API_URL");
      if apiUrl == "" then Err("API URL must be specified")
      else
        var appUrl := Getenv(env, "APP_URL");
        if appUrl == "" then Err("app URL must be specified")
        else
          var domain := Getenv(env, "DOMAIN");
          if domain == "" then Err("domain must be specified")
          else Ok(Config(environment, port, apiUrl, appUrl, domain))
  }

  /** The environment reads the given values for the five variables. */
  predicate Reads(env: Env, e: string, port: string, apiUrl: string, appUrl: string, domain: string)
  {
    && Getenv(env, "ENV") == e
    && Getenv(env, "PORT") == port
    && Getenv(env, "API_URL") == apiUrl
    && Getenv(env, "APP_URL") == appUrl
    && Getenv(env, "DOMAIN") == domain
  }

  lemma RequiredPresent(env: Env)
    requires Getenv(env, "API_URL") != "" && Getenv(env, "APP_URL") != "" && Getenv(env, "DOMAIN") != ""
    ensures FirstEmpty(env, RequiredKeys).None?
  {
    forall j | 0 <= j < |RequiredKeys| ensures Getenv(env, RequiredKeys[j]) != "" {
      assert RequiredKeys[j] in {"API_URL", "APP_URL", "DOMAIN"};
    }
  }

  /** ENV is read without regard to case. */
  lemma EnvironmentIgnoresCase(env: Env)
    requires Getenv(env, "ENV") == "Production"
    ensures Environment(env) == "production"
  {
    assert Lower("Production") == "production";
  }

  /** The first row of the package's own test table. */
  lemma NewConfigNormal(env: Env)
    requires Reads(env, "Production", "8090", "foo.com/api", "foo.com", "foo.com")
    ensures NewConfigFromEnv(env) == Ok(Config("production", 8090, "foo.com/api", "foo.com", "foo.com"))
  {
    AtoiExamples();
    RequiredPresent(env);
    EnvironmentIgnoresCase(env);
  }

  /** The row for a missing ENV: the deployment defaults to development. */
  lemma NewConfigMissingEnv(env: Env)
    requires Reads(env, "", "8090", "foo.com/api", "foo.com", "foo.com")
    ensures NewConfigFromEnv(env) == Ok(Config("development", 8090, "foo.com/api", "foo.com", "foo.com"))
  {
    AtoiExamples();
    RequiredPresent(env);
  }

  /** The row for a missing PORT: the port defaults to 8080. */
  lemma NewConfigMissingPort(env: Env)
    requires Reads(env, "production", "", "foo.com/api", "foo.com", "foo.com")
    ensures NewConfigFromEnv(env) == Ok(Config("production", 8080, "foo.com/api", "foo.com", "foo.com"))
  {
    RequiredPresent(env);
    LowerIdentity("production");
  }

  /** The refusing rows of the package's own test table. */
  lemma NewConfigRefuses(env: Env, env2: Env, env3: Env)
    requires Reads(env, "production", "8090", "", "foo.com", "foo.com")
    requires Reads(env2, "production", "8090", "foo.com/api", "", "foo.com")
    requires Reads(env3, "production", "8090", "foo.com/api", "foo.com", "")
    ensures NewConfigFromEnv(env) == Err("API URL must be specified")
    ensures NewConfigFromEnv(env2) == Err("app URL must be specified")
    ensures NewConfigFromEnv(env3) == Err("domain must be specified")
  {
    AtoiExamples();
  }
}

=== FILE: auth.dfy ===
/** The authentication gateway: the session gate in front of protected
    routes, the start of the OAuth authorization-code flow, and the callback
    that turns a verified OpenID Connect identity into a session.

    Every external effect (code exchange, ID-token verification, claim
    decoding, repository calls) is an outcome value handed in by the caller;
    the callback reports which of them it reached, in order, as a trace. */
module Auth {
  import opened Common
  import opened Strconv
  import opened Repository
  import opened Http
  import Base64

  const StateCookieName: string := "oauthstate"

  /** One year, in seconds. */
  const MaxOauthStateCookieAge: int := 60 * 60 * 24 * 365

  /** Where every rejected callback sends the browser to start again. */
  const ReinitiatePath: string := "/auth"

  const UnauthorizedReply: Reply := Json(StatusUnauthorized, Message("unauthorized"))

  // ---------------------------------------------------------------------
  // authMiddleware

  /** What the session holds under the key "user". */
  datatype SessionValue = Unset | IntValue(n: int) | OtherValue

  /** The session manager's GetInt: the stored int, or 0 when the key is
      unset or holds something else. */
  function GetInt(v: SessionValue): (n: int)
    ensures v.IntValue? ==> n == v.n
    ensures !v.IntValue? ==> n == 0
  {
    match v
    case IntValue(n) => n
    case _ => 0
  }

  /** Outcome of the gate: the request is aborted with a reply, or the
      chain continues with the context key "user" set to `user`. */
  datatype Gate = Abort(reply: Reply) | Proceed(user: int32)

  /** The session's int, narrowed to int32, must be non-zero. */
  function AuthMiddleware(session: SessionValue): (g: Gate)
    ensures g.Abort? <==> GetInt(session) % TwoTo32 == 0
    ensures g.Abort? ==> g.reply == Json(401, Message("unauthorized"))
    ensures g.Proceed? ==> g.user != 0 && (GetInt(session) - g.user) % TwoTo32 == 0
  {
    Int32Zero(GetInt(session));
    var userId := Int32(GetInt(session));
    if userId == 0 then Abort(UnauthorizedReply) else Proceed(userId)
  }

  /** A session that stores a non-zero int32 id admits exactly that id. */
  lemma MiddlewareAdmitsStoredId(id: int32)
    requires id != 0
    ensures AuthMiddleware(IntValue(id)) == Proceed(id)
  {
    Int32Identity(id);
  }

  // ---------------------------------------------------------------------
  // authHandler

  /** The `oauthstate` cookie: one year, every path, the configured domain,
      secure and HTTP-only. */
  function StateCookie(value: string, domain: string): Cookie
  {
    Cookie(StateCookieName, value, MaxOauthStateCookieAge, "/", domain, true, true)
  }

  /** generateOauthState, given the 16 bytes it draws from the system's
      random source: their URL-safe base 64 text. */
  function GenerateOauthState(random: seq<Base64.byte>): (state: string)
    requires |random| == 16
    ensures |state| == 24
    ensures forall i :: 0 <= i < 22 ==> Base64.InAlphabet(Base64.UrlSafe, state[i])
    ensures state[22] == '=' && state[23] == '='
    ensures Base64.ValueOf(Base64.UrlSafe, state[21]).Some?
            && Base64.ValueOf(Base64.UrlSafe, state[21]).value % 16 == 0
    ensures Base64.DecodeQuanta(Base64.UrlSafe, state) == Some(random)
  {
    var state := Base64.Encode(Base64.UrlSafe, random);
    Base64.EncodeTwoPads(Base64.UrlSafe, random);
    Base64.RoundTrip(Base64.UrlSafe, random);
    state
  }

  /** The contract of generateOauthState leaves no choice: a text with
      those properties is the state it returns. */
  lemma OauthStateDetermined(random: seq<Base64.byte>, t: string)
    requires |random| == 16 && |t| == 24
    requires t[22] == '=' && t[23] == '='
    requires Base64.ValueOf(Base64.UrlSafe, t[21]).Some?
    requires Base64.ValueOf(Base64.UrlSafe, t[21]).value % 16 == 0
    requires Base64.DecodeQuanta(Base64.UrlSafe, t) == Some(random)
    ensures t == GenerateOauthState(random)
  {
    Base64.EncodeCanonical(Base64.UrlSafe, t, random);
  }

  /** What authHandler writes: the state cookie and the redirect. */
  datatype AuthStart = AuthStart(cookie: Cookie, reply: Reply)

  function AuthHandler(domain: string, random: seq<Base64.byte>): (r: AuthStart)
    requires |random| == 16
    ensures r.cookie.name == "oauthstate" && r.cookie.maxAge == 31536000
    ensures r.cookie.path == "/" && r.cookie.domain == domain
    ensures r.cookie.secure && r.cookie.httpOnly
    ensures r.reply == Redirect(302, ProviderAuthUrl(r.cookie.value))
    ensures |r.cookie.value| == 24
    ensures Base64.DecodeQuanta(Base64.UrlSafe, r.cookie.value) == Some(random)
  {
    var state := GenerateOauthState(random);
    AuthStart(StateCookie(state, domain), Redirect(StatusFound, ProviderAuthUrl(state)))
  }

  // ---------------------------------------------------------------------
  // authCallbackHandler

  /** The ID token claims the callback decodes. */
  datatype Claims = Claims(email: string)

  /** What the code exchange returned: the token set's "id_token" extra,
      when it is present and a string. */
  datatype TokenSet = TokenSet(idToken: Option<string>)

  /** The outcomes of the external steps; each is consulted only if the
      pipeline reaches it. `created` is None when CreateUser fails. In the
      source CreateUser returns only an error and no row, and the callback
      never reads one; Some(row) is the row a CreateUser that returned the
      inserted row (or a second lookup) would give, which only the
      corrected callback uses. */
  datatype CallbackOutcomes = CallbackOutcomes(
    exchange: Option<TokenSet>,
    verified: bool,
    claims: Option<Claims>,
    lookup: Lookup,
    created: Option<User>)

  /** The steps of the callback, in the only order they may run. */
  datatype Step =
    | ClearStateCookie
    | CompareState
    | ExchangeCode(code: string)
    | ExtractIdToken
    | VerifyIdToken(rawIdToken: string)
    | DecodeClaims
    | FindUser(email: string)
    | CreateUser(email: string)
    | PutSession(userId: int)

  function Rank(s: Step): nat
  {
    match s
    case ClearStateCookie => 0
    case CompareState => 1
    case ExchangeCode(_) => 2
    case ExtractIdToken => 3
    case VerifyIdToken(_) => 4
    case DecodeClaims => 5
    case FindUser(_) => 6
    case CreateUser(_) => 7
    case PutSession(_) => 8
  }

  /** Each step of a trace comes strictly after the ones before it. */
  ghost predicate Ordered(trace: seq<Step>)
  {
    forall i, j :: 0 <= i < j < |trace| ==> Rank(trace[i]) < Rank(trace[j])
  }

  /** Everything the callback does: the cookie it sets, the reply, the
      value written to the session under "user" (if any), and the steps. */
  datatype CallbackResult = CallbackResult(
    cookie: Cookie,
    reply: Reply,
    session: Option<int>,
    trace: seq<Step>)

  /** Reading a cookie that is not there gives "". */
  function CookieValue(cookie: Option<string>): (v: string)
    ensures v == "" <==> cookie.None? || cookie == Some("")
  {
    match cookie
    case Some(v) => v
    case None => ""
  }

  /** The steps before the repository is consulted: either the request is
      rejected, or it carries verified claims. */
  datatype Authn = Rejected(trace: seq<Step>) | Authenticated(claims: Claims, trace: seq<Step>)

  predicate StateMatches(cookieValue: string, stateParam: string)
  {
    stateParam == cookieValue
  }

  /** Every external step of authentication succeeds. */
  predicate ProviderAccepts(o: CallbackOutcomes)
  {
    o.exchange.Some? && o.exchange.value.idToken.Some? && o.verified && o.claims.Some?
  }

  /** The raw ID token handed to the verifier ("" when none was obtained,
      in which case the verifier is never reached). */
  function RawIdToken(o: CallbackOutcomes): string
  {
    if o.exchange.Some? && o.exchange.value.idToken.Some? then o.exchange.value.idToken.value else ""
  }

  /** The authentication steps in the order the callback runs them. */
  function AuthSteps(code: string, raw: string): seq<Step>
  {
    [ClearStateCookie, CompareState, ExchangeCode(code), ExtractIdToken, VerifyIdToken(raw), DecodeClaims]
  }

  /** How many of the authentication steps run: each failure stops the
      callback right after the step that failed. */
  function AuthStepsRun(cookieValue: string, stateParam: string, o: CallbackOutcomes): (n: nat)
    ensures 2 <= n <= 6
    ensures n == 2 <==> !StateMatches(cookieValue, stateParam)
    ensures n == 3 <==> StateMatches(cookieValue, stateParam) && o.exchange.None?
    ensures n == 4 <==> StateMatches(cookieValue, stateParam) && o.exchange.Some?
                        && o.exchange.value.idToken.None?
    ensures n == 5 <==> StateMatches(cookieValue, stateParam) && o.exchange.Some?
                        && o.exchange.value.idToken.Some? && !o.verified
    ensures n == 6 <==> StateMatches(cookieValue, stateParam) && o.exchange.Some?
                        && o.exchange.value.idToken.Some? && o.verified
  {
    if stateParam != cookieValue then 2
    else if o.exchange.None? then 3
    else if o.exchange.value.idToken.None? then 4
    else if !o.verified then 5
    else 6
  }

  lemma AuthStepsOrdered(code: string, raw: string, n: nat)
    requires n <= 6
    ensures Ordered(AuthSteps(code, raw)[..n])
    ensures forall i :: 0 <= i < n ==> Rank(AuthSteps(code, raw)[i]) == i
  {
    var steps := AuthSteps(code, raw);
    forall i | 0 <= i < 6 ensures Rank(steps[i]) == i {
    }
  }

  function Authenticate(cookieValue: string, stateParam: string, code: string, o: CallbackOutcomes): (a: Authn)
    ensures |a.trace| >= 2 && a.trace[0] == ClearStateCookie && a.trace[1] == CompareState
    ensures Ordered(a.trace)
    ensures forall i :: 0 <= i < |a.trace| ==> Rank(a.trace[i]) <= 5
    ensures a.Authenticated? <==> StateMatches(cookieValue, stateParam) && ProviderAccepts(o)
    ensures a.Authenticated? ==> a.claims == o.claims.value && |a.trace| == 6
    ensures ExchangeCode(code) in a.trace <==> StateMatches(cookieValue, stateParam)
    ensures a.trace == AuthSteps(code, RawIdToken(o))[..AuthStepsRun(cookieValue, stateParam, o)]
  {
    var n := AuthStepsRun(cookieValue, stateParam, o);
    var steps := AuthSteps(code, RawIdToken(o));
    AuthStepsOrdered(code, RawIdToken(o), n);
    assert steps[2] == ExchangeCode(code);
    assert ExchangeCode(code) in steps[..n] <==> n > 2;
    if n == 6 && o.claims.Some? then Authenticated(o.claims.value, steps[..6])
    else Rejected(steps[..n])
  }

  /** The response that sends a rejected callback back to /auth. */
  const ReinitiateReply: Reply := Redirect(StatusTemporaryRedirect, Url(ReinitiatePath))

  lemma OrderedAppend(t: seq<Step>, u: seq<Step>, bound: nat)
    requires Ordered(t) && Ordered(u)
    requires forall i :: 0 <= i < |t| ==> Rank(t[i]) <= bound
    requires forall j :: 0 <= j < |u| ==> bound < Rank(u[j])
    ensures Ordered(t + u)
  {
    var w := t + u;
    forall i, j | 0 <= i < j < |w| ensures Rank(w[i]) < Rank(w[j]) {
      if j < |t| {
        assert w[i] == t[i] && w[j] == t[j];
      } else if i < |t| {
        assert w[i] == t[i] && w[j] == u[j - |t|];
      } else {
        assert w[i] == u[i - |t|] && w[j] == u[j - |t|];
      }
    }
  }

  /** The repository stage of the callback, for verified claims. */
  datatype SignIn = SignIn(reply: Reply, session: Option<int>, steps: seq<Step>)

  /** Look the user up by e-mail, create it when there is no such row, and
      write the id to the session. `newUserId` is the id the session
      receives for a user created here. */
  function SignInUser(frontendURL: string, email: string, lookup: Lookup,
                      created: Option<User>, newUserId: int): (s: SignIn)
    ensures |s.steps| >= 1 && s.steps[0] == FindUser(email)
    ensures Ordered(s.steps)
    ensures forall j :: 0 <= j < |s.steps| ==> 6 <= Rank(s.steps[j])
    ensures s.session.Some? <==> s.reply == Redirect(308, Url(frontendURL))
    ensures s.session.Some? <==> s.steps[|s.steps| - 1].PutSession?
    ensures s.session.Some? ==> s.steps[|s.steps| - 1] == PutSession(s.session.value)
    ensures s.session.None? ==> s.reply.Json? && s.reply.status == 500
    ensures CreateUser(email) in s.steps <==> lookup.NoRows?
    ensures s.session.Some? <==> lookup.Found? || (lookup.NoRows? && created.Some?)
    ensures lookup.Found? ==> s.session == Some(lookup.user.id as int)
    ensures lookup.NoRows? && created.Some? ==> s.session == Some(newUserId)
    ensures lookup.LookupFailed? ==> s.reply == Json(500, Message("unable to retrieve user information"))
    ensures lookup.NoRows? && created.None? ==> s.reply == Json(500, Message("unable to add user to database"))
  {
    var t := [FindUser(email)];
    match lookup
    case LookupFailed =>
      SignIn(Json(StatusInternalServerError, Message("unable to retrieve user information")), None, t)
    case NoRows =>
      var t := t + [CreateUser(email)];
      if created.None? then
        SignIn(Json(StatusInternalServerError, Message("unable to add user to database")), None, t)
      else
        SignIn(Redirect(StatusPermanentRedirect, Url(frontendURL)), Some(newUserId), t + [PutSession(newUserId)])
    case Found(user) =>
      SignIn(Redirect(StatusPermanentRedirect, Url(frontendURL)), Some(user.id), t + [PutSession(user.id)])
  }

  /** The callback after a successful authentication whose steps are
      `authTrace`: the repository stage follows them. */
  function SignedIn(cleared: Cookie, frontendURL: string, authTrace: seq<Step>, claims: Claims,
                    o: CallbackOutcomes, newUserId: int): (r: CallbackResult)
    requires |authTrace| == 6 && Ordered(authTrace)
    requires forall i :: 0 <= i < |authTrace| ==> Rank(authTrace[i]) <= 5
    ensures r.cookie == cleared
    ensures |r.trace| > 6 && r.trace[..6] == authTrace
    ensures Ordered(r.trace)
    ensures r.session.Some? <==> r.reply == Redirect(308, Url(frontendURL))
    ensures r.session.Some? <==> r.trace[|r.trace| - 1].PutSession?
    ensures r.session.Some? ==> r.trace[|r.trace| - 1] == PutSession(r.session.value)
    ensures r.reply.Json? ==> r.reply.status == 500 && r.session.None?
  {
    var s := SignInUser(frontendURL, claims.email, o.lookup, o.created, newUserId);
    OrderedAppend(authTrace, s.steps, 5);
    var trace := authTrace + s.steps;
    assert trace[|trace| - 1] == s.steps[|s.steps| - 1];
    assert trace[..6] == authTrace;
    CallbackResult(cleared, s.reply, s.session, trace)
  }

  /** The shared body of the callback; `newUserId` is what the session
      receives for a user created during this sign-in. */
  function CallbackWith(domain: string, frontendURL: string, cookie: Option<string>,
                        stateParam: string, code: string, o: CallbackOutcomes, newUserId: int): (r: CallbackResult)
    ensures r.cookie == StateCookie("", domain)
    ensures |r.trace| >= 2 && r.trace[0] == ClearStateCookie && r.trace[1] == CompareState
    ensures Ordered(r.trace)
    ensures r.session.Some? <==> r.reply == Redirect(308, Url(frontendURL))
    ensures r.session.Some? <==> r.trace[|r.trace| - 1].PutSession?
    ensures r.session.Some? ==> r.trace[|r.trace| - 1] == PutSession(r.session.value)
    ensures r.reply.Json? ==> r.reply.status == 500 && r.session.None?
    ensures r.reply == Redirect(307, Url("/auth"))
            <==> !(StateMatches(CookieValue(cookie), stateParam) && ProviderAccepts(o))
    ensures r.reply == Redirect(307, Url("/auth"))
            ==> r.trace == AuthSteps(code, RawIdToken(o))[..AuthStepsRun(CookieValue(cookie), stateParam, o)]
    ensures r.reply != Redirect(307, Url("/auth"))
            ==> |r.trace| > 6 && r.trace[..6] == AuthSteps(code, RawIdToken(o))
  {
    var cleared := StateCookie("", domain);
    var auth := Authenticate(CookieValue(cookie), stateParam, code, o);
    if auth.Rejected? then CallbackResult(cleared, ReinitiateReply, None, auth.trace)
    else
      var r := SignedIn(cleared, frontendURL, auth.trace, auth.claims, o, newUserId);
      assert r.trace[0] == auth.trace[0] && r.trace[1] == auth.trace[1];
      r
  }


  /** authCallbackHandler: clear the state cookie, compare the state,
      authenticate, find or create the user, write the session, redirect
      to the front end. The id stored for a newly created user is the zero
      value left in the result of the failed lookup, as in the source. */
  function Callback(domain: string, frontendURL: string, cookie: Option<string>,
                    stateParam: string, code: string, o: CallbackOutcomes): (r: CallbackResult)
    ensures r.cookie == StateCookie("", domain)
    ensures |r.trace| >= 2 && r.trace[0] == ClearStateCookie && r.trace[1] == CompareState
    ensures Ordered(r.trace)
    ensures r.session.Some? <==> r.reply == Redirect(308, Url(frontendURL))
    ensures r.session.Some? <==> r.trace[|r.trace| - 1].PutSession?
    ensures r.session.Some? ==> r.trace[|r.trace| - 1] == PutSession(r.session.value)
    ensures r.reply.Json? ==> r.reply.status == 500 && r.session.None?
    ensures r.reply == Redirect(307, Url("/auth"))
            <==> !(StateMatches(CookieValue(cookie), stateParam) && ProviderAccepts(o))
    ensures r.reply == Redirect(307, Url("/auth"))
            ==> r.trace == AuthSteps(code, RawIdToken(o))[..AuthStepsRun(CookieValue(cookie), stateParam, o)]
    ensures r.reply != Redirect(307, Url("/auth"))
            ==> |r.trace| > 6 && r.trace[..6] == AuthSteps(code, RawIdToken(o))
  {
    CallbackWith(domain, frontendURL, cookie, stateParam, code, o, ZeroUser.id)
  }

  // ---------------------------------------------------------------------
  // Properties of the callback

  /** A state parameter that differs from the cookie (an absent cookie
      reading as "") is redirected to /auth before any exchange, and no
      session is written. */
  lemma StateMismatchRejected(domain: string, frontendURL: string, cookie: Option<string>,
                              stateParam: string, code: string, o: CallbackOutcomes)
    requires stateParam != CookieValue(cookie)
    ensures var r := Callback(domain, frontendURL, cookie, stateParam, code, o);
      && r.reply == Redirect(307, Url("/auth"))
      && r.session.None?
      && r.trace == [ClearStateCookie, CompareState]
  {
  }

  /** An empty state parameter passes the comparison when the cookie is
      absent or already cleared: the exchange is attempted. */
  lemma EmptyStatePassesWithoutCookie(domain: string, frontendURL: string, cookie: Option<string>,
                                      code: string, o: CallbackOutcomes)
    requires cookie == None || cookie == Some("")
    ensures ExchangeCode(code) in Callback(domain, frontendURL, cookie, "", code, o).trace
  {
  }

  /** The callback cannot tell an absent state cookie from the cleared
      one a previous callback leaves behind. */
  lemma AbsentCookieLikeCleared(domain: string, frontendURL: string, stateParam: string,
                                code: string, o: CallbackOutcomes)
    ensures Callback(domain, frontendURL, None, stateParam, code, o)
            == Callback(domain, frontendURL, Some(""), stateParam, code, o)
  {
  }

  /** A failed exchange, a missing ID token, a rejected token or
      undecodable claims all redirect to /auth; the callback stops at the
      step that failed, the repository is never consulted and no session
      is written. */
  lemma ProviderFailureRedirects(domain: string, frontendURL: string, cookie: Option<string>,
                                 stateParam: string, code: string, o: CallbackOutcomes)
    requires stateParam == CookieValue(cookie)
    requires !ProviderAccepts(o)
    ensures var r := Callback(domain, frontendURL, cookie, stateParam, code, o);
      && r.reply == Redirect(307, Url("/auth"))
      && r.session.None?
      && ExchangeCode(code) in r.trace
      && (forall i :: 0 <= i < |r.trace| ==> !r.trace[i].FindUser? && !r.trace[i].CreateUser?)
      && (o.exchange.None? ==> r.trace == [ClearStateCookie, CompareState, ExchangeCode(code)])
      && (o.exchange.Some? && o.exchange.value.idToken.None?
          ==> r.trace == [ClearStateCookie, CompareState, ExchangeCode(code), ExtractIdToken])
      && (o.exchange.Some? && o.exchange.value.idToken.Some? && !o.verified
          ==> r.trace == [ClearStateCookie, CompareState, ExchangeCode(code), ExtractIdToken,
                          VerifyIdToken(o.exchange.value.idToken.value)])
      && (o.exchange.Some? && o.exchange.value.idToken.Some? && o.verified
          ==> r.trace == AuthSteps(code, o.exchange.value.idToken.value))
  {
  }

  /** Repository failures after a successful authentication answer 500 and
      write no session. */
  lemma RepositoryFailureAnswers500(domain: string, frontendURL: string, cookie: Option<string>,
                                    stateParam: string, code: string, o: CallbackOutcomes)
    requires stateParam == CookieValue(cookie) && ProviderAccepts(o)
    requires o.lookup.LookupFailed? || (o.lookup.NoRows? && o.created.None?)
    ensures var r := Callback(domain, frontendURL, cookie, stateParam, code, o);
      && r.session.None?
      && r.reply == Json(500, Message(if o.lookup.LookupFailed? then "unable to retrieve user information"
                                      else "unable to add user to database"))
      && FindUser(o.claims.value.email) in r.trace
  {
  }

  /** A known user's id is written to the session and the browser is
      permanently redirected to the front end. */
  lemma KnownUserSignsIn(domain: string, frontendURL: string, cookie: Option<string>,
                         stateParam: string, code: string, o: CallbackOutcomes)
    requires stateParam == CookieValue(cookie) && ProviderAccepts(o) && o.lookup.Found?
    ensures var r := Callback(domain, frontendURL, cookie, stateParam, code, o);
      && r.session == Some(o.lookup.user.id as int)
      && r.reply == Redirect(308, Url(frontendURL))
      && r.trace[6] == FindUser(o.claims.value.email)
      && |r.trace| == 8
  {
  }

  /** The state cookie is single-use: after any callback, a second callback
      presenting the cleared cookie rejects every non-empty state. */
  lemma StateIsSingleUse(domain: string, frontendURL: string, cookie: Option<string>,
                         stateParam: string, code: string, o: CallbackOutcomes,
                         replayState: string, code2: string, o2: CallbackOutcomes)
    requires replayState != ""
    ensures var first := Callback(domain, frontendURL, cookie, stateParam, code, o);
      var second := Callback(domain, frontendURL, Some(first.cookie.value), replayState, code2, o2);
      second.reply == Redirect(307, Url("/auth")) && second.session.None?
  {
  }

  /** The whole flow for a known user: the state written by authHandler is
      accepted by the callback, and the session it writes passes the gate. */
  lemma KnownUserRoundTrip(domain: string, frontendURL: string, random: seq<Base64.byte>,
                           code: string, o: CallbackOutcomes)
    requires |random| == 16
    requires ProviderAccepts(o) && o.lookup.Found? && o.lookup.user.id != 0
    ensures var start := AuthHandler(domain, random);
      var r := Callback(domain, frontendURL, Some(start.cookie.value), start.cookie.value, code, o);
      && r.session == Some(o.lookup.user.id as int)
      && AuthMiddleware(IntValue(r.session.value)) == Proceed(o.lookup.user.id)
  {
    MiddlewareAdmitsStoredId(o.lookup.user.id);
  }

  /** As written, a first sign-in stores the zero id of the failed lookup,
      which the gate then rejects: the new user is not signed in. */
  lemma NewUserSessionRejected(domain: string, frontendURL: string, cookie: Option<string>,
                               stateParam: string, code: string, o: CallbackOutcomes)
    requires stateParam == CookieValue(cookie) && ProviderAccepts(o)
    requires o.lookup.NoRows? && o.created.Some?
    ensures var r := Callback(domain, frontendURL, cookie, stateParam, code, o);
      && r.reply == Redirect(308, Url(frontendURL))
      && r.session == Some(0)
      && AuthMiddleware(IntValue(r.session.value)).Abort?
  {
  }

  // ---------------------------------------------------------------------
  // Corrected callback

  /** Two callback results that differ at most in the id the final
      session write stores. */
  predicate AgreeApartFromSessionId(a: CallbackResult, b: CallbackResult)
  {
    && a.reply == b.reply
    && a.cookie == b.cookie
    && (a.session.Some? <==> b.session.Some?)
    && |a.trace| == |b.trace|
    && (|a.trace| == 0 || a.trace[..|a.trace| - 1] == b.trace[..|b.trace| - 1])
  }

  /** The id given to a new user reaches only the final session write of
      the callback after a successful authentication. */
  lemma SignedInIdOnlyInSession(cleared: Cookie, frontendURL: string, authTrace: seq<Step>, claims: Claims,
                                o: CallbackOutcomes, id1: int, id2: int)
    requires |authTrace| == 6 && Ordered(authTrace)
    requires forall i :: 0 <= i < |authTrace| ==> Rank(authTrace[i]) <= 5
    ensures var a := SignedIn(cleared, frontendURL, authTrace, claims, o, id1);
      var b := SignedIn(cleared, frontendURL, authTrace, claims, o, id2);
      && AgreeApartFromSessionId(a, b)
      && (!o.lookup.NoRows? ==> a == b)
  {
    var s1 := SignInUser(frontendURL, claims.email, o.lookup, o.created, id1);
    var s2 := SignInUser(frontendURL, claims.email, o.lookup, o.created, id2);
    if o.lookup.NoRows? && o.created.Some? {
      var e := claims.email;
      assert s1.steps == [FindUser(e), CreateUser(e), PutSession(id1)];
      assert s2.steps == [FindUser(e), CreateUser(e), PutSession(id2)];
      var t1, t2 := authTrace + s1.steps, authTrace + s2.steps;
      assert t1[..|t1| - 1] == authTrace + [FindUser(e), CreateUser(e)] == t2[..|t2| - 1];
    } else {
      assert s1 == s2;
    }
  }

  /** The id given to a new user reaches only the final session write:
      two callbacks that differ in it agree on the reply, the cookie,
      whether a session is written and every step before the last, and
      agree entirely unless the lookup found no row. */
  lemma NewUserIdOnlyInSession(domain: string, frontendURL: string, cookie: Option<string>,
                               stateParam: string, code: string, o: CallbackOutcomes, id1: int, id2: int)
    ensures var a := CallbackWith(domain, frontendURL, cookie, stateParam, code, o, id1);
      var b := CallbackWith(domain, frontendURL, cookie, stateParam, code, o, id2);
      && AgreeApartFromSessionId(a, b)
      && (!o.lookup.NoRows? ==> a == b)
  {
    var auth := Authenticate(CookieValue(cookie), stateParam, code, o);
    if auth.Authenticated? {
      SignedInIdOnlyInSession(StateCookie("", domain), frontendURL, auth.trace, auth.claims, o, id1, id2);
    }
  }

  /** The callback with the session written from the row a CreateUser
      that returns it would give, instead of the zero value left by the
      failed lookup. Only the final session write differs. */
  function CallbackFixed(domain: string, frontendURL: string, cookie: Option<string>,
                         stateParam: string, code: string, o: CallbackOutcomes): (r: CallbackResult)
    ensures r.session.Some? ==>
      || (o.lookup.Found? && r.session.value == o.lookup.user.id as int)
      || (o.lookup.NoRows? && o.created.Some? && r.session.value == o.created.value.id as int)
    ensures !o.lookup.NoRows? ==> r == Callback(domain, frontendURL, cookie, stateParam, code, o)
    ensures var c := Callback(domain, frontendURL, cookie, stateParam, code, o);
      && r.reply == c.reply
      && r.cookie == c.cookie
      && (r.session.Some? <==> c.session.Some?)
      && |r.trace| == |c.trace|
      && r.trace[..|r.trace| - 1] == c.trace[..|c.trace| - 1]
  {
    var newUserId := if o.created.Some? then o.created.value.id as int else 0;
    NewUserIdOnlyInSession(domain, frontendURL, cookie, stateParam, code, o, newUserId, ZeroUser.id);
    CallbackWith(domain, frontendURL, cookie, stateParam, code, o, newUserId)
  }

  /** With the correction, a first sign-in is admitted by the gate under
      the new user's id. */
  lemma FixedNewUserAdmitted(domain: string, frontendURL: string, cookie: Option<string>,
                             stateParam: string, code: string, o: CallbackOutcomes)
    requires stateParam == CookieValue(cookie) && ProviderAccepts(o)
    requires o.lookup.NoRows? && o.created.Some? && o.created.value.id != 0
    ensures var r := CallbackFixed(domain, frontendURL, cookie, stateParam, code, o);
      && r.session == Some(o.created.value.id as int)
      && AuthMiddleware(IntValue(r.session.value)) == Proceed(o.created.value.id)
  {
    MiddlewareAdmitsStoredId(o.created.value.id);
  }

  /** As written, the cleared cookie a previous callback leaves behind
      matches an empty state parameter: a callback carrying someone else's
      authorization code and no state signs the browser in as that
      someone. */
  lemma ClearedCookieAdmitsEmptyState(domain: string, frontendURL: string, cookie: Option<string>,
                                      stateParam: string, code: string, o: CallbackOutcomes,
                                      forgedCode: string, o2: CallbackOutcomes)
    requires ProviderAccepts(o2) && o2.lookup.Found?
    ensures var first := Callback(domain, frontendURL, cookie, stateParam, code, o);
      var second := Callback(domain, frontendURL, Some(first.cookie.value), "", forgedCode, o2);
      && ExchangeCode(forgedCode) in second.trace
      && second.session == Some(o2.lookup.user.id as int)
  {
  }

  /** The callback refusing a missing or cleared state cookie before the
      comparison, so that no state parameter can match it. */
  function CallbackRequiringState(domain: string, frontendURL: string, cookie: Option<string>,
                                  stateParam: string, code: string, o: CallbackOutcomes): (r: CallbackResult)
    ensures r.cookie == StateCookie("", domain)
    ensures r.reply == Redirect(307, Url("/auth"))
            <==> !(CookieValue(cookie) != "" && StateMatches(CookieValue(cookie), stateParam) && ProviderAccepts(o))
    ensures CookieValue(cookie) == "" ==> r.session.None? && ExchangeCode(code) !in r.trace
    ensures CookieValue(cookie) != "" ==> r == Callback(domain, frontendURL, cookie, stateParam, code, o)
  {
    if CookieValue(cookie) == "" then
      CallbackResult(StateCookie("", domain), ReinitiateReply, None, [ClearStateCookie, CompareState])
    else Callback(domain, frontendURL, cookie, stateParam, code, o)
  }

  /** With the correction, a replayed callback is refused whatever state it
      carries, while the state authHandler wrote is still accepted. */
  lemma RequiringStateRefusesReplay(domain: string, frontendURL: string, random: seq<Base64.byte>,
                                    code: string, o: CallbackOutcomes,
                                    replayState: string, code2: string, o2: CallbackOutcomes)
    requires |random| == 16
    ensures var start := AuthHandler(domain, random);
      var first := CallbackRequiringState(domain, frontendURL, Some(start.cookie.value), start.cookie.value, code, o);
      var second := CallbackRequiringState(domain, frontendURL, Some(first.cookie.value), replayState, code2, o2);
      && first == Callback(domain, frontendURL, Some(start.cookie.value), start.cookie.value, code, o)
      && second.reply == Redirect(307, Url("/auth")) && second.session.None?
      && ExchangeCode(code2) !in second.trace
  {
  }
}

=== FILE: base64.dfy ===
/** Base 64 as Go's `encoding/base64` does it with padding: the encoder
    shared by the standard alphabet (section 4 of RFC 4648) and the URL and
    filename safe alphabet (section 5 of RFC 4648), and the non-strict padded
    decoder, which skips carriage returns and line feeds and ignores the
    unused low bits of the last quantum. */
module Base64 {
  import opened Common

  type byte = b: int | 0 <= b < 256
  type sextet = v: int | 0 <= v < 64

  datatype Alphabet = Standard | UrlSafe

  const Pad: char := '='

  /** The character that encodes the 6-bit value `v`. */
  function CharOf(a: Alphabet, v: sextet): char
  {
    if v < 26 then ('A' as int + v) as char
    else if v < 52 then ('a' as int + v - 26) as char
    else if v < 62 then ('0' as int + v - 52) as char
    else if v == 62 then (if a.Standard? then '+' else '-')
    else (if a.Standard? then '/' else '_')
  }

  /** The decoding map: the value a character stands for, if any. */
  function ValueOf(a: Alphabet, c: char): (r: Option<sextet>)
    ensures r.Some? ==> CharOf(a, r.value) == c
    ensures r.Some? ==> c != Pad
  {
    if 'A' <= c <= 'Z' then Some(c as int - 'A' as int)
    else if 'a' <= c <= 'z' then Some(c as int - 'a' as int + 26)
    else if '0' <= c <= '9' then Some(c as int - '0' as int + 52)
    else if c == (if a.Standard? then '+' else '-') then Some(62)
    else if c == (if a.Standard? then '/' else '_') then Some(63)
    else None
  }

  predicate InAlphabet(a: Alphabet, c: char)
  {
    ValueOf(a, c).Some?
  }

  /** Every value has exactly one character and decodes back from it. */
  lemma ValueOfCharOf(a: Alphabet, v: sextet)
    ensures ValueOf(a, CharOf(a, v)) == Some(v)
  {
  }

  /** Number of '=' characters that pad the encoding of n bytes. */
  function PadCount(n: nat): nat
  {
    (3 - n % 3) % 3
  }

  function EncodeGroup(a: Alphabet, b0: byte, b1: byte, b2: byte): (s: string)
    ensures |s| == 4
  {
    [CharOf(a, b0 / 4), CharOf(a, (b0 % 4) * 16 + b1 / 16),
     CharOf(a, (b1 % 16) * 4 + b2 / 64), CharOf(a, b2 % 64)]
  }

  /** The last group of one or two bytes, filled up with '='. */
  function EncodeLast(a: Alphabet, b: seq<byte>): (s: string)
    requires 1 <= |b| <= 2
  {
    if |b| == 1 then
      [CharOf(a, b[0] / 4), CharOf(a, (b[0] % 4) * 16), Pad, Pad]
    else
      [CharOf(a, b[0] / 4), CharOf(a, (b[0] % 4) * 16 + b[1] / 16),
       CharOf(a, (b[1] % 16) * 4), Pad]
  }

  /** The character `c` stands for a multiple of `m`, if for anything. */
  predicate LowBitsZero(a: Alphabet, c: char, m: nat)
    requires m > 0
  {
    ValueOf(a, c).None? || ValueOf(a, c).value % m == 0
  }

  /** The bits a padded last quantum leaves unused are zero, as section 3.5
      of RFC 4648 asks of encoders: the low four bits of the character
      before "==", the low two bits of the character before a single "=". */
  predicate PadBitsZero(a: Alphabet, s: string)
  {
    |s| >= 4 && s[|s| - 1] == Pad ==>
      if s[|s| - 2] == Pad then LowBitsZero(a, s[|s| - 3], 16)
      else LowBitsZero(a, s[|s| - 2], 4)
  }

  /** `EncodeToString`: whole groups of three bytes first, then the last
      group of one or two bytes. */
  function Encode(a: Alphabet, b: seq<byte>): (s: string)
    ensures |s| % 4 == 0
    ensures |s| == 0 <==> |b| == 0
    ensures PadBitsZero(a, s)
    decreases |b|
  {
    if |b| == 0 then []
    else if |b| <= 2 then
      EncodeLastPadBits(a, b);
      EncodeLast(a, b)
    else
      var g, rest := EncodeGroup(a, b[0], b[1], b[2]), Encode(a, b[3..]);
      ValueOfCharOf(a, b[2] % 64);
      PadBitsZeroAfterQuantum(a, g, rest);
      g + rest
  }

  lemma EncodeLastPadBits(a: Alphabet, b: seq<byte>)
    requires 1 <= |b| <= 2
    ensures PadBitsZero(a, EncodeLast(a, b))
  {
    if |b| == 1 {
      ValueOfCharOf(a, (b[0] % 4) * 16);
    } else {
      ValueOfCharOf(a, (b[1] % 16) * 4);
    }
  }

  /** A quantum without padding in front of whole quanta leaves the
      question of pad bits to the quanta after it. */
  lemma PadBitsZeroAfterQuantum(a: Alphabet, q: string, rest: string)
    requires |q| == 4 && q[3] != Pad && |rest| % 4 == 0
    ensures PadBitsZero(a, q + rest) <==> PadBitsZero(a, rest)
  {
    var s := q + rest;
    if |rest| >= 4 {
      assert s[|s| - 1] == rest[|rest| - 1];
      assert s[|s| - 2] == rest[|rest| - 2];
      assert s[|s| - 3] == rest[|rest| - 3];
    }
  }

  /** `s` is alphabet characters followed by `pads` padding characters. */
  ghost predicate Shaped(a: Alphabet, s: string, pads: nat)
  {
    && pads <= |s|
    && (forall i :: 0 <= i < |s| - pads ==> InAlphabet(a, s[i]))
    && (forall i :: |s| - pads <= i < |s| ==> s[i] == Pad)
  }

  lemma ShapedConcat(a: Alphabet, g: string, rest: string, pads: nat)
    requires Shaped(a, g, 0) && Shaped(a, rest, pads)
    ensures Shaped(a, g + rest, pads)
  {
    var s := g + rest;
    forall i | |g| <= i < |s|
      ensures s[i] == rest[i - |g|]
    {
    }
  }

  lemma GroupShaped(a: Alphabet, b0: byte, b1: byte, b2: byte)
    ensures Shaped(a, EncodeGroup(a, b0, b1, b2), 0)
  {
    ValueOfCharOf(a, b0 / 4);
    ValueOfCharOf(a, (b0 % 4) * 16 + b1 / 16);
    ValueOfCharOf(a, (b1 % 16) * 4 + b2 / 64);
    ValueOfCharOf(a, b2 % 64);
  }

  /** The encoding of n bytes has 4 * ceil(n / 3) characters. */
  lemma {:induction false} EncodeLength(a: Alphabet, b: seq<byte>)
    ensures |Encode(a, b)| == 4 * ((|b| + 2) / 3)
    decreases |b|
  {
    if |b| >= 3 {
      EncodeLength(a, b[3..]);
      assert (|b| + 2) / 3 == (|b[3..]| + 2) / 3 + 1;
    }
  }

  /** When the input leaves one byte over, the text ends in two padding
      characters after nothing but alphabet characters, the last of which
      stands for a multiple of 16. */
  lemma EncodeTwoPads(a: Alphabet, b: seq<byte>)
    requires |b| % 3 == 1
    ensures var s := Encode(a, b);
      && |s| == 4 * ((|b| + 2) / 3)
      && s[|s| - 2..] == [Pad, Pad]
      && (forall i :: 0 <= i < |s| - 2 ==> InAlphabet(a, s[i]))
      && ValueOf(a, s[|s| - 3]).value % 16 == 0
  {
    var s := Encode(a, b);
    EncodeLength(a, b);
    EncodeShape(a, b);
    assert PadCount(|b|) == 2;
    assert s[|s| - 2..] == [s[|s| - 2], s[|s| - 1]];
    assert InAlphabet(a, s[|s| - 3]) && LowBitsZero(a, s[|s| - 3], 16);
  }

  lemma ShortEncodeShaped(a: Alphabet, b: seq<byte>)
    requires 1 <= |b| <= 2
    ensures Shaped(a, Encode(a, b), PadCount(|b|))
  {
    ValueOfCharOf(a, b[0] / 4);
    if |b| == 1 {
      ValueOfCharOf(a, (b[0] % 4) * 16);
    } else {
      ValueOfCharOf(a, (b[0] % 4) * 16 + b[1] / 16);
      ValueOfCharOf(a, (b[1] % 16) * 4);
    }
  }

  /** The encoding is alphabet characters followed by exactly PadCount(n)
      padding characters. */
  lemma {:induction false} EncodeShape(a: Alphabet, b: seq<byte>)
    ensures Shaped(a, Encode(a, b), PadCount(|b|))
    decreases |b|
  {
    if 1 <= |b| <= 2 {
      ShortEncodeShaped(a, b);
    } else if |b| >= 3 {
      EncodeShape(a, b[3..]);
      GroupShaped(a, b[0], b[1], b[2]);
      assert PadCount(|b|) == PadCount(|b[3..]|);
      ShapedConcat(a, EncodeGroup(a, b[0], b[1], b[2]), Encode(a, b[3..]), PadCount(|b|));
    }
  }

  /** The three bytes packed into four sextets (the low bits of a padded
      last quantum are simply dropped by the callers). */
  function DecodeGroup(v0: sextet, v1: sextet, v2: sextet, v3: sextet): (b: seq<byte>)
    ensures |b| == 3
  {
    [v0 * 4 + v1 / 16, (v1 % 16) * 16 + v2 / 4, (v2 % 4) * 64 + v3]
  }

  /** Four characters of the alphabet, no padding. */
  predicate FullQuantum(a: Alphabet, q: string)
    requires |q| == 4
  {
    InAlphabet(a, q[0]) && InAlphabet(a, q[1]) && InAlphabet(a, q[2]) && InAlphabet(a, q[3])
  }

  function DecodeFull(a: Alphabet, q: string): seq<byte>
    requires |q| == 4 && FullQuantum(a, q)
  {
    DecodeGroup(ValueOf(a, q[0]).value, ValueOf(a, q[1]).value, ValueOf(a, q[2]).value, ValueOf(a, q[3]).value)
  }

  /** A last quantum that is not full: "xx==" yields one byte and "xxx="
      two; any other shape is corrupt. */
  function DecodePadded(a: Alphabet, q: string): Option<seq<byte>>
    requires |q| == 4
  {
    var v0, v1, v2 := ValueOf(a, q[0]), ValueOf(a, q[1]), ValueOf(a, q[2]);
    if v0.None? || v1.None? || q[3] != Pad then None
    else if v2.Some? then Some(DecodeGroup(v0.value, v1.value, v2.value, 0)[..2])
    else if q[2] == Pad then Some(DecodeGroup(v0.value, v1.value, 0, 0)[..1])
    else None
  }

  /** Decoding of a text already stripped of line breaks: quanta of four
      characters; only the last may end in "xx==" or "xxx="; anything else
      (a short quantum, padding in the first two places, text after the
      padding, a character outside the alphabet) is corrupt input. */
  function DecodeQuanta(a: Alphabet, s: string): (r: Option<seq<byte>>)
    ensures r.Some? ==> forall i :: 0 <= i < |s| ==> InAlphabet(a, s[i]) || (s[i] == Pad && |s| - 2 <= i)
    decreases |s|
  {
    if |s| == 0 then Some([])
    else if |s| < 4 then None
    else if FullQuantum(a, s[..4]) then
      match DecodeQuanta(a, s[4..])
      case None => None
      case Some(rest) =>
        assert forall i :: 4 <= i < |s| ==> s[i] == s[4..][i - 4];
        Some(DecodeFull(a, s[..4]) + rest)
    else if |s| == 4 then DecodePadded(a, s)
    else None
  }

  predicate IsLineBreak(c: char)
  {
    c == '\r' || c == '\n'
  }

  function StripLineBreaks(s: string): (r: string)
    ensures |r| <= |s|
    ensures forall i :: 0 <= i < |r| ==> !IsLineBreak(r[i])
  {
    if |s| == 0 then ""
    else if IsLineBreak(s[0]) then StripLineBreaks(s[1..])
    else [s[0]] + StripLineBreaks(s[1..])
  }

  /** `DecodeString` of a padded encoding, as `StdEncoding` does it: line
      breaks are skipped, and what remains must be whole quanta, each
      yielding three bytes less one per padding character. */
  function DecodeString(a: Alphabet, s: string): (r: Option<seq<byte>>)
    ensures r.Some? ==> |StripLineBreaks(s)| % 4 == 0
    ensures r.Some? ==> |r.value| <= 3 * (|StripLineBreaks(s)| / 4) < |r.value| + 3
  {
    var t := StripLineBreaks(s);
    var r := DecodeQuanta(a, t);
    if r.Some? then DecodeLength(a, t); r else r
  }

  // ---------------------------------------------------------------------
  // Lemmas

  /** A line break anywhere in the input changes nothing. */
  lemma {:induction false} StripConcat(x: string, y: string)
    ensures StripLineBreaks(x + y) == StripLineBreaks(x) + StripLineBreaks(y)
    decreases |x|
  {
    if |x| > 0 {
      assert (x + y)[0] == x[0];
      assert (x + y)[1..] == x[1..] + y;
      StripConcat(x[1..], y);
      if IsLineBreak(x[0]) {
        calc {
          StripLineBreaks(x + y);
          StripLineBreaks(x[1..] + y);
          StripLineBreaks(x[1..]) + StripLineBreaks(y);
          StripLineBreaks(x) + StripLineBreaks(y);
        }
      } else {
        calc {
          StripLineBreaks(x + y);
          [x[0]] + StripLineBreaks(x[1..] + y);
          [x[0]] + (StripLineBreaks(x[1..]) + StripLineBreaks(y));
          ([x[0]] + StripLineBreaks(x[1..])) + StripLineBreaks(y);
          StripLineBreaks(x) + StripLineBreaks(y);
        }
      }
    } else {
      assert x + y == y;
    }
  }

  lemma LineBreaksIgnored(a: Alphabet, x: string, c: char, y: string)
    requires IsLineBreak(c)
    ensures DecodeString(a, x + [c] + y) == DecodeString(a, x + y)
  {
    StripConcat(x + [c], y);
    StripConcat(x, [c]);
    StripConcat(x, y);
    assert [c][1..] == [];
    assert StripLineBreaks([c]) == "";
    assert StripLineBreaks(x + [c]) == StripLineBreaks(x);
    assert StripLineBreaks(x + [c] + y) == StripLineBreaks(x) + StripLineBreaks(y);
  }

  lemma GroupRoundTrip(b0: byte, b1: byte, b2: byte)
    ensures DecodeGroup(b0 / 4, (b0 % 4) * 16 + b1 / 16, (b1 % 16) * 4 + b2 / 64, b2 % 64)
            == [b0, b1, b2]
  {
  }

  lemma DecodeLastOne(a: Alphabet, b0: byte)
    ensures DecodeQuanta(a, Encode(a, [b0])) == Some([b0])
  {
    var s := Encode(a, [b0]);
    ValueOfCharOf(a, b0 / 4);
    ValueOfCharOf(a, (b0 % 4) * 16);
    assert !InAlphabet(a, s[2]);
    assert s[..4] == s;
    assert DecodeGroup(b0 / 4, (b0 % 4) * 16, 0, 0)[..1] == [b0];
  }

  lemma PairRoundTrip(b0: byte, b1: byte)
    ensures DecodeGroup(b0 / 4, (b0 % 4) * 16 + b1 / 16, (b1 % 16) * 4, 0)[..2] == [b0, b1]
  {
    var v1 := (b0 % 4) * 16 + b1 / 16;
    var v2 := (b1 % 16) * 4;
    assert v1 / 16 == b0 % 4 && v1 % 16 == b1 / 16 && v2 / 4 == b1 % 16;
  }

  lemma DecodeLastTwo(a: Alphabet, b0: byte, b1: byte)
    ensures DecodeQuanta(a, Encode(a, [b0, b1])) == Some([b0, b1])
  {
    var s := Encode(a, [b0, b1]);
    var v0, v1, v2 := b0 / 4, (b0 % 4) * 16 + b1 / 16, (b1 % 16) * 4;
    assert s == [CharOf(a, v0), CharOf(a, v1), CharOf(a, v2), Pad];
    ValueOfCharOf(a, v0);
    ValueOfCharOf(a, v1);
    ValueOfCharOf(a, v2);
    assert !InAlphabet(a, s[3]);
    assert s[..4] == s;
    assert DecodeQuanta(a, s) == Some(DecodeGroup(v0, v1, v2, 0)[..2]);
    PairRoundTrip(b0, b1);
  }

  /** Decoding a full leading quantum of an encoding, given the rest. */
  lemma DecodeFirstQuantum(a: Alphabet, v0: sextet, v1: sextet, v2: sextet, v3: sextet, rest: string)
    requires DecodeQuanta(a, rest).Some?
    ensures DecodeQuanta(a, [CharOf(a, v0), CharOf(a, v1), CharOf(a, v2), CharOf(a, v3)] + rest)
            == Some(DecodeGroup(v0, v1, v2, v3) + DecodeQuanta(a, rest).value)
  {
    var q := [CharOf(a, v0), CharOf(a, v1), CharOf(a, v2), CharOf(a, v3)];
    var s := q + rest;
    assert s[..4] == q && s[4..] == rest;
    ValueOfCharOf(a, v0);
    ValueOfCharOf(a, v1);
    ValueOfCharOf(a, v2);
    ValueOfCharOf(a, v3);
    assert FullQuantum(a, q);
    assert DecodeFull(a, q) == DecodeGroup(v0, v1, v2, v3);
  }

  lemma DecodeEncodedGroup(a: Alphabet, b0: byte, b1: byte, b2: byte, rest: string)
    requires DecodeQuanta(a, rest).Some?
    ensures DecodeQuanta(a, EncodeGroup(a, b0, b1, b2) + rest)
            == Some([b0, b1, b2] + DecodeQuanta(a, rest).value)
  {
    DecodeFirstQuantum(a, b0 / 4, (b0 % 4) * 16 + b1 / 16, (b1 % 16) * 4 + b2 / 64, b2 % 64, rest);
    GroupRoundTrip(b0, b1, b2);
  }

  lemma DecodeGroupStep(a: Alphabet, b: seq<byte>)
    requires |b| >= 3
    requires DecodeQuanta(a, Encode(a, b[3..])) == Some(b[3..])
    ensures DecodeQuanta(a, Encode(a, b)) == Some(b)
  {
    var g, rest := EncodeGroup(a, b[0], b[1], b[2]), Encode(a, b[3..]);
    assert Encode(a, b) == g + rest;
    DecodeEncodedGroup(a, b[0], b[1], b[2], rest);
    assert [b[0], b[1], b[2]] + b[3..] == b;
  }

  /** Decoding undoes encoding, for either alphabet. */
  lemma {:induction false} RoundTrip(a: Alphabet, b: seq<byte>)
    ensures DecodeQuanta(a, Encode(a, b)) == Some(b)
    decreases |b|
  {
    if |b| == 1 {
      assert b == [b[0]];
      DecodeLastOne(a, b[0]);
    } else if |b| == 2 {
      assert b == [b[0], b[1]];
      DecodeLastTwo(a, b[0], b[1]);
    } else if |b| >= 3 {
      RoundTrip(a, b[3..]);
      DecodeGroupStep(a, b);
    }
  }

  /** Packing the bytes of a quantum back into characters gives the
      quantum. */
  lemma EncodeDecodedGroup(a: Alphabet, v0: sextet, v1: sextet, v2: sextet, v3: sextet)
    ensures var b := DecodeGroup(v0, v1, v2, v3);
      EncodeGroup(a, b[0], b[1], b[2]) == [CharOf(a, v0), CharOf(a, v1), CharOf(a, v2), CharOf(a, v3)]
  {
    var b := DecodeGroup(v0, v1, v2, v3);
    assert b[0] / 4 == v0 && b[0] % 4 == v1 / 16;
    assert b[1] / 16 == v1 % 16 && b[1] % 16 == v2 / 4;
    assert b[2] / 64 == v2 % 4 && b[2] % 64 == v3;
  }

  /** The converse of the round trip: a text that decodes to `b` and keeps
      the unused pad bits zero is the encoding of `b`, so the encoding is
      the only such text. */
  lemma {:induction false} EncodeCanonical(a: Alphabet, s: string, b: seq<byte>)
    requires DecodeQuanta(a, s) == Some(b) && PadBitsZero(a, s)
    ensures Encode(a, b) == s
    decreases |s|
  {
    if |s| == 0 {
      return;
    }
    var q := s[..4];
    var v0, v1 := ValueOf(a, q[0]), ValueOf(a, q[1]);
    if FullQuantum(a, q) {
      var tail := s[4..];
      var rest := DecodeQuanta(a, tail).value;
      assert s == q + tail;
      DecodeLength(a, tail);
      PadBitsZeroAfterQuantum(a, q, tail);
      EncodeCanonical(a, tail, rest);
      EncodeFullQuantum(a, q, rest);
    } else {
      EncodePaddedQuantum(a, s);
    }
  }

  /** Encoding the bytes of a full quantum followed by `rest` gives the
      quantum followed by the encoding of `rest`. */
  lemma EncodeFullQuantum(a: Alphabet, q: string, rest: seq<byte>)
    requires |q| == 4 && FullQuantum(a, q)
    ensures Encode(a, DecodeFull(a, q) + rest) == q + Encode(a, rest)
  {
    var v0, v1, v2, v3 := ValueOf(a, q[0]).value, ValueOf(a, q[1]).value, ValueOf(a, q[2]).value, ValueOf(a, q[3]).value;
    var b := DecodeFull(a, q) + rest;
    EncodeDecodedGroup(a, v0, v1, v2, v3);
    assert b[3..] == rest;
    assert q == [CharOf(a, v0), CharOf(a, v1), CharOf(a, v2), CharOf(a, v3)];
  }

  /** A padded last quantum with zero pad bits is the encoding of what it
      decodes to. */
  lemma EncodePaddedQuantum(a: Alphabet, q: string)
    requires |q| == 4 && DecodePadded(a, q).Some? && PadBitsZero(a, q)
    ensures Encode(a, DecodePadded(a, q).value) == q
  {
    var b := DecodePadded(a, q).value;
    var v0, v1 := ValueOf(a, q[0]).value, ValueOf(a, q[1]).value;
    if ValueOf(a, q[2]).Some? {
      var v2 := ValueOf(a, q[2]).value;
      assert v2 % 4 == 0;
      assert b == DecodeGroup(v0, v1, v2, 0)[..2];
      assert b[0] / 4 == v0 && (b[0] % 4) * 16 + b[1] / 16 == v1 && (b[1] % 16) * 4 == v2;
      assert q == [CharOf(a, v0), CharOf(a, v1), CharOf(a, v2), Pad];
    } else {
      assert v1 % 16 == 0;
      assert b == DecodeGroup(v0, v1, 0, 0)[..1];
      assert b[0] / 4 == v0 && (b[0] % 4) * 16 == v1;
      assert q == [CharOf(a, v0), CharOf(a, v1), Pad, Pad];
    }
  }

  /** Decoding a standard encoding, line breaks or not, gives the bytes back. */
  lemma StdDecodeEncode(b: seq<byte>)
    ensures DecodeString(Standard, Encode(Standard, b)) == Some(b)
  {
    var s := Encode(Standard, b);
    EncodeShape(Standard, b);
    forall i | 0 <= i < |s|
      ensures !IsLineBreak(s[i])
    {
      if i < |s| - PadCount(|b|) {
        assert InAlphabet(Standard, s[i]);
      } else {
        assert s[i] == Pad;
      }
    }
    StripNoLineBreaks(s);
    RoundTrip(Standard, b);
  }

  lemma {:induction false} StripNoLineBreaks(s: string)
    requires forall i :: 0 <= i < |s| ==> !IsLineBreak(s[i])
    ensures StripLineBreaks(s) == s
    decreases |s|
  {
    if |s| > 0 {
      StripNoLineBreaks(s[1..]);
    }
  }

  /** A successful decoding reads whole quanta and yields three bytes per
      quantum, less one per padding character. */
  lemma {:induction false} DecodeLength(a: Alphabet, s: string)
    requires DecodeQuanta(a, s).Some?
    ensures |s| % 4 == 0
    ensures |DecodeQuanta(a, s).value| <= 3 * (|s| / 4) < |DecodeQuanta(a, s).value| + 3
    decreases |s|
  {
    if |s| > 4 {
      DecodeLength(a, s[4..]);
    }
  }

  /** Concrete decodings of well-formed input, with and without line breaks. */
  lemma DecodeExamples()
    ensures DecodeString(Standard, "") == Some([])
    ensures DecodeString(Standard, "aGk=") == Some([104, 105])
    ensures DecodeString(Standard, "aG\nk=\r\n") == Some([104, 105])
  {
    StripNoLineBreaks("aGk=");
    assert ValueOf(Standard, 'a') == Some(26);
    assert ValueOf(Standard, 'G') == Some(6);
    assert ValueOf(Standard, 'k') == Some(36);
    assert DecodeGroup(26, 6, 36, 0)[..2] == [104, 105];
    assert DecodeQuanta(Standard, "aGk=") == Some([104, 105]);
    assert StripLineBreaks("aG\nk=\r\n") == "aGk=";
  }

  /** The corrupt shapes: a short quantum, padding too early. */
  lemma CorruptPaddingExamples()
    ensures DecodeString(Standard, "aGk") == None
    ensures DecodeString(Standard, "aG=k") == None
    ensures DecodeString(Standard, "a===") == None
  {
    StripNoLineBreaks("aGk");
    StripNoLineBreaks("aG=k");
    StripNoLineBreaks("a===");
  }

  /** More corrupt shapes: text after the padding, a character of the
      other alphabet. */
  lemma CorruptTextExamples()
    ensures DecodeString(Standard, "aGk=aGk=") == None
    ensures DecodeString(Standard, "aGk_") == None
  {
    StripNoLineBreaks("aGk=aGk=");
    StripNoLineBreaks("aGk_");
  }
}

=== FILE: common.dfy ===
/** Shared vocabulary: failure-carrying results, the process environment,
    and the ASCII and UTF-8 string helpers the handlers and configuration
    readers rely on. */
module Common {

  datatype Option<+T> = None | Some(value: T)

  /** A Go `(value, error)` pair in which exactly one side is meaningful. */
  datatype Result<+T, +E> = Ok(value: T) | Err(error: E)

  /** The process environment. A variable that is not set reads as "",
      exactly as `os.Getenv` reports it. */
  type Env = map<string, string>

  function Getenv(env: Env, key: string): string
  {
    if key in env then env[key] else ""
  }

  /** Index of the first of `keys` whose variable reads as empty: the
      reference for every "first missing variable wins" check. */
  function FirstEmpty(env: Env, keys: seq<string>): (r: Option<nat>)
    ensures r.Some? ==> r.value < |keys| && Getenv(env, keys[r.value]) == ""
    ensures r.Some? ==> forall j :: 0 <= j < r.value ==> Getenv(env, keys[j]) != ""
    ensures r.None? <==> forall j :: 0 <= j < |keys| ==> Getenv(env, keys[j]) != ""
  {
    if |keys| == 0 then None
    else if Getenv(env, keys[0]) == "" then Some(0)
    else match FirstEmpty(env, keys[1..])
      case None => None
      case Some(i) => Some(i + 1)
  }

  predicate IsUpper(c: char)
  {
    'A' <= c <= 'Z'
  }

  function LowerChar(c: char): char
  {
    if IsUpper(c) then (c as int + 32) as char else c
  }

  /** `strings.ToLower` restricted to ASCII letters. */
  function Lower(s: string): (r: string)
    ensures |r| == |s|
    ensures forall i :: 0 <= i < |s| ==> r[i] == LowerChar(s[i])
  {
    if |s| == 0 then "" else [LowerChar(s[0])] + Lower(s[1..])
  }

  /** Lower-casing leaves a string without upper-case letters unchanged. */
  lemma LowerIdentity(s: string)
    requires forall i :: 0 <= i < |s| ==> !IsUpper(s[i])
    ensures Lower(s) == s
  {
    assert forall i :: 0 <= i < |s| ==> Lower(s)[i] == s[i];
  }

  /** Number of bytes the UTF-8 encoding of `c` occupies. */
  function Utf8Width(c: char): nat
  {
    if c as int < 0x80 then 1
    else if c as int < 0x800 then 2
    else if c as int < 0x1_0000 then 3
    else 4
  }

  /** Go's `len` of a string: its length in UTF-8 bytes. */
  function Utf8Len(s: string): (n: nat)
    ensures |s| <= n <= 4 * |s|
    ensures (forall i :: 0 <= i < |s| ==> s[i] as int < 0x80) ==> n == |s|
  {
    if |s| == 0 then 0 else Utf8Width(s[0]) + Utf8Len(s[1..])
  }
}

=== FILE: controllers.dfy ===
/** Selection of the workload back end from the process environment. The
    only back end is Kubernetes; the cluster type names it without regard
    to case. */
module Controllers {
  import opened Common
  import Kube
  import Base64

  /** The controller interface's implementations. */
  datatype Controller = KubeBackend(kube: Kube.KubeController)

  /** The outcome, and the REST configuration the Kubernetes client
      library was called with, if it was called. */
  datatype Startup = Startup(result: Result<Controller, string>, restConfig: Option<Kube.RestConfig>)

  /** CLUSTER_TYPE, lower-cased. */
  function ClusterType(env: Env): string
  {
    Lower(Getenv(env, "CLUSTER_TYPE"))
  }

  /** NewControllerFromEnv: an empty cluster type and an unknown one are
      errors; "kubernetes" reads the Kubernetes configuration and builds
      its controller, passing either step's error through unchanged.
      `newForConfig` is the client library's answer. */
  function NewControllerFromEnv(env: Env, newForConfig: Result<Kube.Clientset, string>): (s: Startup)
    ensures Getenv(env, "CLUSTER_TYPE") == "" ==> s == Startup(Err("cluster type must be specified"), None)
    ensures ClusterType(env) != "" && ClusterType(env) != "kubernetes"
            ==> s == Startup(Err("invalid cluster type"), None)
    ensures ClusterType(env) == "kubernetes" && Kube.NewKubeConfigFromEnv(env).Err?
            ==> s == Startup(Err(Kube.NewKubeConfigFromEnv(env).error), None)
    ensures ClusterType(env) == "kubernetes" && Kube.NewKubeConfigFromEnv(env).Ok?
            ==> var c := Kube.NewKubeController(Kube.NewKubeConfigFromEnv(env).value, newForConfig);
                && s.restConfig == c.restConfig
                && (c.result.Err? ==> s.result == Err(c.result.error))
                && (c.result.Ok? ==> s.result == Ok(KubeBackend(c.result.value)))
    ensures s.result.Ok? ==> ClusterType(env) == "kubernetes" && Kube.NewKubeConfigFromEnv(env).Ok?
  {
    var clusterType := ClusterType(env);
    if clusterType == "" then Startup(Err("cluster type must be specified"), None)
    else if clusterType == "kubernetes" then
      match Kube.NewKubeConfigFromEnv(env)
      case Err(e) => Startup(Err(e), None)
      case Ok(cfg) =>
        var c := Kube.NewKubeController(cfg, newForConfig);
        match c.result
        case Err(e) => Startup(Err(e), c.restConfig)
        case Ok(controller) => Startup(Ok(KubeBackend(controller)), c.restConfig)
    else Startup(Err("invalid cluster type"), None)
  }

  /** The cluster type is read without regard to case. */
  lemma ClusterTypeIgnoresCase(env: Env)
    requires Getenv(env, "CLUSTER_TYPE") == "Kubernetes"
    ensures ClusterType(env) == "kubernetes"
  {
    assert Lower("Kubernetes") == "kubernetes";
  }

  /** With a Kubernetes cluster type and a complete environment, startup
      succeeds exactly when the certificate decodes and the client
      library builds a clientset; the controller serves the pod's
      namespace. */
  lemma KubernetesStartup(env: Env, newForConfig: Result<Kube.Clientset, string>)
    requires ClusterType(env) == "kubernetes" && Kube.NewKubeConfigFromEnv(env).Ok?
    ensures var s := NewControllerFromEnv(env, newForConfig);
      && (s.result.Ok? <==> Base64.DecodeString(Base64.Standard, Getenv(env, "KUBE_CERT")).Some? && newForConfig.Ok?)
      && (s.result.Ok? ==> s.result.value.kube.namespace == Getenv(env, "POD_NAMESPACE"))
  {
  }
}

=== FILE: http.dfy ===
/** The slice of HTTP the handlers produce: status codes, cookies and
    the replies written to the client. */
module Http {
  import opened Repository

  const StatusOK: int := 200
  const StatusFound: int := 302
  const StatusTemporaryRedirect: int := 307
  const StatusPermanentRedirect: int := 308
  const StatusBadRequest: int := 400
  const StatusUnauthorized: int := 401
  const StatusNotFound: int := 404
  const StatusInternalServerError: int := 500

  /** Where a redirect points: a literal URL or path, or the identity
      provider's authorization URL carrying an anti-forgery state (built
      by the OAuth library, which is not part of this model). */
  datatype Location = Url(url: string) | ProviderAuthUrl(state: string)

  /** JSON bodies: `{"message": ...}`, a problems map, a workspace, a list
      of workspaces, or nothing at all. */
  datatype Body =
    | Message(text: string)
    | Problems(problems: map<string, string>)
    | WorkspaceJson(workspace: Workspace)
    | WorkspaceListJson(workspaces: seq<Workspace>)
    | NoBody

  /** One write to the response. */
  datatype Reply = Redirect(status: int, location: Location) | Json(status: int, body: Body)

  /** A cookie the handlers set, with its attributes; `value` is the
      cookie's logical value, before the framework query-escapes it into
      the Set-Cookie header. */
  datatype Cookie = Cookie(
    name: string,
    value: string,
    maxAge: int,
    path: string,
    domain: string,
    secure: bool,
    httpOnly: bool)

  /** The status line a client sees: the first write fixes it; a later
      write can only append to the body. */
  function EffectiveStatus(replies: seq<Reply>): int
    requires |replies| > 0
  {
    replies[0].status
  }
}

=== FILE: kube.dfy ===
/** The Kubernetes back end: its configuration, read from the process
    environment of a pod, and the controller built from it. Building the
    API clientset belongs to the Kubernetes client library; its outcome is
    handed in, and the controller reports the REST configuration it passed
    to the library. */
module Kube {
  import opened Common
  import Base64

  datatype KubeConfig = KubeConfig(
    host: string,
    port: string,
    token: string,
    cert: string,
    namespace: string)

  /** The variables that must be set, in the order they are checked, and
      the error each one reports when it is empty. */
  const RequiredKeys: seq<string> := [
    "KUBERNETES_SERVICE_HOST",
    "KUBERNETES_SERVICE_PORT_HTTPS",
    "KUBE_TOKEN",
    "KUBE_CERT",
    "POD_NAMESPACE"]

  const Messages: seq<string> := [
    "could not retrieve Kubernetes service host",
    "could not retrieve Kubernetes service port",
    "kubernetes token must be specified",
    "kubernetes CA cert must be specified",
    "could not retrieve Kubernetes namespace"]

  /** NewKubeConfigFromEnv: the first empty variable is reported; otherwise
      every field is copied from its variable. */
  function NewKubeConfigFromEnv(env: Env): (r: Result<KubeConfig, string>)
    ensures r.Ok? <==> FirstEmpty(env, RequiredKeys).None?
    ensures r.Err? ==> r.error == Messages[FirstEmpty(env, RequiredKeys).value]
    ensures r.Ok? ==> r.value == KubeConfig(
      Getenv(env, "KUBERNETES_SERVICE_HOST"), Getenv(env, "KUBERNETES_SERVICE_PORT_HTTPS"),
      Getenv(env, "KUBE_TOKEN"), Getenv(env, "KUBE_CERT"), Getenv(env, "POD_NAMESPACE"))
  {
    assert RequiredKeys[0] == "KUBERNETES_SERVICE_HOST" && RequiredKeys[1] == "KUBERNETES_SERVICE_PORT_HTTPS";
    assert RequiredKeys[2] == "KUBE_TOKEN" && RequiredKeys[3] == "KUBE_CERT" && RequiredKeys[4] == "POD_NAMESPACE";
    var host := Getenv(env, "KUBERNETES_SERVICE_HOST");
    if host == "" then Err("could not retrieve Kubernetes service host")
    else
      var port := Getenv(env, "KUBERNETES_SERVICE_PORT_HTTPS");
      if port == "" then Err("could not retrieve Kubernetes service port")
      else
        var token := Getenv(env, "KUBE_TOKEN");
        if token == "" then Err("kubernetes token must be specified")
        else
          var cert := Getenv(env, "KUBE_CERT");
          if cert == "" then Err("kubernetes CA cert must be specified")
          else
            var namespace := Getenv(env, "POD_NAMESPACE");
            if namespace == "" then Err("could not retrieve Kubernetes namespace")
            else Ok(KubeConfig(host, port, token, cert, namespace))
  }

  /** The environment reads the given values for the five variables. */
  predicate Reads(env: Env, host: string, port: string, token: string, cert: string, namespace: string)
  {
    && Getenv(env, "KUBERNETES_SERVICE_HOST") == host
    && Getenv(env, "KUBERNETES_SERVICE_PORT_HTTPS") == port
    && Getenv(env, "KUBE_TOKEN") == token
    && Getenv(env, "KUBE_CERT") == cert
    && Getenv(env, "POD_NAMESPACE") == namespace
  }

  /** The accepting row of the package's own test table. */
  lemma KubeConfigNormal(env: Env)
    requires Reads(env, "127.0.0.1", "6443", "abcdefg", "hijklmnop", "default")
    ensures NewKubeConfigFromEnv(env) == Ok(KubeConfig("127.0.0.1", "6443", "abcdefg", "hijklmnop", "default"))
  {
    assert FirstEmpty(env, RequiredKeys).None? by {
      forall j | 0 <= j < |RequiredKeys| ensures Getenv(env, RequiredKeys[j]) != "" {
        assert RequiredKeys[j] in {"KUBERNETES_SERVICE_HOST", "KUBERNETES_SERVICE_PORT_HTTPS",
                                   "KUBE_TOKEN", "KUBE_CERT", "POD_NAMESPACE"};
      }
    }
  }

  /** Each refusing row of the package's own test table: with every other
      variable set, the missing one is named. */
  lemma KubeConfigMissing(env: Env, k: nat)
    requires k < 5
    requires forall j :: 0 <= j < 5 ==> (Getenv(env, RequiredKeys[j]) == "" <==> j == k)
    ensures NewKubeConfigFromEnv(env) == Err(Messages[k])
  {
    assert Getenv(env, RequiredKeys[k]) == "";
    var i := FirstEmpty(env, RequiredKeys);
    assert i.Some? && Getenv(env, RequiredKeys[i.value]) == "";
  }

  // ---------------------------------------------------------------------
  // NewKubeController

  /** The REST configuration handed to the client library. */
  datatype RestConfig = RestConfig(
    host: string,
    bearerToken: string,
    insecure: bool,
    caData: seq<Base64.byte>)

  /** A clientset built by the client library; only its identity matters
      here. */
  datatype Clientset = Clientset(handle: nat)

  datatype KubeController = KubeController(clientset: Clientset, namespace: string)

  /** The outcome, and the REST configuration the library was called
      with, if it was called. */
  datatype Construction = Construction(result: Result<KubeController, string>, restConfig: Option<RestConfig>)

  /** The API server's URL: HTTPS on the given host and port. */
  function ApiServerUrl(host: string, port: string): (url: string)
    ensures |url| == 9 + |host| + |port|
    ensures url[..8] == "https://" && url[8..8 + |host|] == host
    ensures url[8 + |host|] == ':' && url[9 + |host|..] == port
  {
    "https://" + host + ":" + port
  }

  /** The start of the error for a certificate that does not decode; the
      source follows it with the bytes decoded before the fault, which are
      not modelled. */
  const CertErrorPrefix: string := "unable to decode cert data: "

  /** NewKubeController: decode the CA certificate from standard base 64,
      point the REST configuration at the API server with the bearer token
      and TLS verification on, and keep the namespace. `newForConfig` is
      the client library's answer. */
  function NewKubeController(cfg: KubeConfig, newForConfig: Result<Clientset, string>): (c: Construction)
    ensures c.restConfig.Some? <==> Base64.DecodeString(Base64.Standard, cfg.cert).Some?
    ensures c.restConfig.None? ==> c.result.Err? && CertErrorPrefix <= c.result.error
    ensures c.restConfig.Some? ==> c.restConfig.value == RestConfig(
      ApiServerUrl(cfg.host, cfg.port), cfg.token, false,
      Base64.DecodeString(Base64.Standard, cfg.cert).value)
    ensures c.restConfig.Some? && newForConfig.Err?
            ==> c.result == Err("unable to create Kubernetes clientset: " + newForConfig.error)
    ensures c.result.Ok? <==> c.restConfig.Some? && newForConfig.Ok?
    ensures c.result.Ok? ==> c.result.value == KubeController(newForConfig.value, cfg.namespace)
  {
    match Base64.DecodeString(Base64.Standard, cfg.cert)
    case None => Construction(Err(CertErrorPrefix), None)
    case Some(caData) =>
      var config := RestConfig(ApiServerUrl(cfg.host, cfg.port), cfg.token, false, caData);
      match newForConfig
      case Err(e) => Construction(Err("unable to create Kubernetes clientset: " + e), Some(config))
      case Ok(clientset) => Construction(Ok(KubeController(clientset, cfg.namespace)), Some(config))
  }

  /** A certificate written as standard base 64 reaches the TLS settings
      as exactly the bytes it encodes. */
  lemma CertificateRoundTrip(cfg: KubeConfig, certBytes: seq<Base64.byte>, newForConfig: Result<Clientset, string>)
    requires cfg.cert == Base64.Encode(Base64.Standard, certBytes)
    ensures var c := NewKubeController(cfg, newForConfig);
      c.restConfig.Some? && c.restConfig.value.caData == certBytes && !c.restConfig.value.insecure
  {
    Base64.StdDecodeEncode(certBytes);
  }

  /** Line breaks in the certificate text (as in a wrapped PEM body) change
      nothing. */
  lemma CertificateLineBreaksIgnored(cfg: KubeConfig, x: string, c: char, y: string,
                                     newForConfig: Result<Clientset, string>)
    requires Base64.IsLineBreak(c) && cfg.cert == x + [c] + y
    ensures NewKubeController(cfg, newForConfig) == NewKubeController(cfg.(cert := x + y), newForConfig)
  {
    Base64.LineBreaksIgnored(Base64.Standard, x, c, y);
  }
}

=== FILE: oauth.dfy ===
/** The OAuth 2.0 client configuration and the OpenID Connect provider,
    read from the process environment. Provider discovery (an HTTP fetch
    of the issuer's discovery document) is an outcome handed in by the
    caller; the reader reports the issuer it would have fetched. */
module OAuth {
  import opened Common

  /** The provider's authorization and token endpoints. */
  datatype Endpoint = Endpoint(authURL: string, tokenURL: string)

  /** A discovered OpenID Connect provider. */
  datatype Provider = Provider(issuer: string, endpoint: Endpoint)

  /** The fields of the OAuth 2.0 client configuration that are set. */
  datatype OAuth2Config = OAuth2Config(
    redirectURL: string,
    clientID: string,
    clientSecret: string,
    scopes: seq<string>,
    endpoint: Endpoint)

  datatype Setup = Setup(config: OAuth2Config, provider: Provider)

  /** The outcome, and the issuer discovery was attempted for, if any. */
  datatype Startup = Startup(result: Result<Setup, string>, discovered: Option<string>)

  /** The OpenID Connect scope every flow must request, and e-mail. */
  const Scopes: seq<string> := ["openid", "email"]

  /** The variables that must be set, in the order they are checked. */
  const RequiredKeys: seq<string> := ["OAUTH_CLIENT_ID", "OAUTH_CLIENT_SECRET", "OAUTH_CALLBACK_URL", "ISSUER"]

  /** The error for each missing variable, as the source words them: the
      client id reports the client secret's message. */
  const Messages: seq<string> := [
    "OAuth client secret must be specified",
    "OAuth client secret must be specified",
    "OAuth callback URL must be specified",
    "issuer URL must be specified"]

  /** The messages with the client id's own wording. */
  const FixedMessages: seq<string> := [
    "OAuth client ID must be specified",
    "OAuth client secret must be specified",
    "OAuth callback URL must be specified",
    "issuer URL must be specified"]

  /** The shared reader; `messages` gives the error for each missing
      variable, in the order of RequiredKeys. */
  function ReadWith(env: Env, discovery: Result<Provider, string>, messages: seq<string>): (s: Startup)
    requires |messages| == 4
    ensures s.discovered.Some? <==> FirstEmpty(env, RequiredKeys).None?
    ensures s.discovered.Some? ==> s.discovered.value == Getenv(env, "ISSUER")
    ensures FirstEmpty(env, RequiredKeys).Some?
            ==> s.result == Err(messages[FirstEmpty(env, RequiredKeys).value])
    ensures s.discovered.Some? && discovery.Err?
            ==> s.result == Err("unable to create OIDC provider: " + discovery.error)
    ensures s.result.Ok? <==> s.discovered.Some? && discovery.Ok?
    ensures s.result.Ok? ==> s.result.value == Setup(
      OAuth2Config(Getenv(env, "OAUTH_CALLBACK_URL"), Getenv(env, "OAUTH_CLIENT_ID"),
                   Getenv(env, "OAUTH_CLIENT_SECRET"), ["openid", "email"], discovery.value.endpoint),
      discovery.value)
  {
    assert RequiredKeys[0] == "OAUTH_CLIENT_ID" && RequiredKeys[1] == "OAUTH_CLIENT_SECRET";
    assert RequiredKeys[2] == "OAUTH_CALLBACK_URL" && RequiredKeys[3] == "ISSUER";
    var clientId := Getenv(env, "OAUTH_CLIENT_ID");
    if clientId == "" then Startup(Err(messages[0]), None)
    else
      var clientSecret := Getenv(env, "OAUTH_CLIENT_SECRET");
      if clientSecret == "" then Startup(Err(messages[1]), None)
      else
        var callback := Getenv(env, "OAUTH_CALLBACK_URL");
        if callback == "" then Startup(Err(messages[2]), None)
        else
          var issuer := Getenv(env, "ISSUER");
          if issuer == "" then Startup(Err(messages[3]), None)
          else match discovery
            case Err(e) => Startup(Err("unable to create OIDC provider: " + e), Some(issuer))
            case Ok(provider) =>
              Startup(Ok(Setup(OAuth2Config(callback, clientId, clientSecret, Scopes, provider.endpoint), provider)),
                      Some(issuer))
  }

  /** NewConfigAndProviderFromEnv as written. */
  function NewConfigAndProviderFromEnv(env: Env, discovery: Result<Provider, string>): (s: Startup)
    ensures s.discovered.Some? <==> FirstEmpty(env, RequiredKeys).None?
    ensures FirstEmpty(env, RequiredKeys).Some?
            ==> s.result == Err(Messages[FirstEmpty(env, RequiredKeys).value])
    ensures s.discovered.Some? ==> s.discovered.value == Getenv(env, "ISSUER")
    ensures s.discovered.Some? && discovery.Err?
            ==> s.result == Err("unable to create OIDC provider: " + discovery.error)
    ensures s.result.Ok? <==> s.discovered.Some? && discovery.Ok?
    ensures s.result.Ok? ==> s.result.value == Setup(
      OAuth2Config(Getenv(env, "OAUTH_CALLBACK_URL"), Getenv(env, "OAUTH_CLIENT_ID"),
                   Getenv(env, "OAUTH_CLIENT_SECRET"), ["openid", "email"], discovery.value.endpoint),
      discovery.value)
  {
    ReadWith(env, discovery, Messages)
  }

  /** As written, a missing client id and a missing client secret cannot
      be told apart: both report the client secret. */
  lemma MissingClientIdReportsSecret(env1: Env, env2: Env, discovery: Result<Provider, string>)
    requires Getenv(env1, "OAUTH_CLIENT_ID") == ""
    requires Getenv(env2, "OAUTH_CLIENT_ID") != "" && Getenv(env2, "OAUTH_CLIENT_SECRET") == ""
    ensures NewConfigAndProviderFromEnv(env1, discovery).result
            == NewConfigAndProviderFromEnv(env2, discovery).result
            == Err("OAuth client secret must be specified")
  {
    assert FirstEmpty(env1, RequiredKeys) == Some(0);
    assert FirstEmpty(env2, RequiredKeys) == Some(1);
  }

  /** The reader with the client id's message corrected. */
  function NewConfigAndProviderFromEnvFixed(env: Env, discovery: Result<Provider, string>): (s: Startup)
    ensures FirstEmpty(env, RequiredKeys).Some?
            ==> s.result == Err(FixedMessages[FirstEmpty(env, RequiredKeys).value])
    ensures FirstEmpty(env, RequiredKeys).None? ==> s == NewConfigAndProviderFromEnv(env, discovery)
  {
    ReadWith(env, discovery, FixedMessages)
  }

  /** With the correction, the error names the missing variable: two
      environments that fail on a missing variable with the same message
      fail on the same variable. */
  lemma FixedErrorIdentifiesVariable(env1: Env, env2: Env, discovery: Result<Provider, string>)
    requires FirstEmpty(env1, RequiredKeys).Some? && FirstEmpty(env2, RequiredKeys).Some?
    requires NewConfigAndProviderFromEnvFixed(env1, discovery).result
             == NewConfigAndProviderFromEnvFixed(env2, discovery).result
    ensures FirstEmpty(env1, RequiredKeys) == FirstEmpty(env2, RequiredKeys)
  {
    var i := FirstEmpty(env1, RequiredKeys).value;
    var j := FirstEmpty(env2, RequiredKeys).value;
    assert FixedMessages[i] == FixedMessages[j];
    assert forall a, b :: 0 <= a < b < 4 ==> FixedMessages[a] != FixedMessages[b] by {
      assert |FixedMessages[0]| == 33 && |FixedMessages[1]| == 37;
      assert |FixedMessages[2]| == 36 && |FixedMessages[3]| == 28;
    }
  }

  /** The package's own test: every variable set and discovery succeeding
      yields the client configuration with the provider's endpoint. */
  lemma NormalConfig(env: Env, provider: Provider)
    requires Getenv(env, "OAUTH_CLIENT_ID") == "oidc12345"
    requires Getenv(env, "OAUTH_CLIENT_SECRET") == "secret123"
    requires Getenv(env, "OAUTH_CALLBACK_URL") == "https://foo.com/callback"
    requires Getenv(env, "ISSUER") == "https://accounts.google.com"
    ensures var s := NewConfigAndProviderFromEnv(env, Ok(provider));
      && s.discovered == Some("https://accounts.google.com")
      && s.result == Ok(Setup(OAuth2Config("https://foo.com/callback", "oidc12345", "secret123",
                                           ["openid", "email"], provider.endpoint), provider))
  {
    assert FirstEmpty(env, RequiredKeys).None? by {
      forall j | 0 <= j < |RequiredKeys| ensures Getenv(env, RequiredKeys[j]) != "" {
        assert RequiredKeys[j] in {"OAUTH_CLIENT_ID", "OAUTH_CLIENT_SECRET", "OAUTH_CALLBACK_URL", "ISSUER"};
      }
    }
  }
}

=== FILE: repository.dfy ===
/** The records and call results of the generated database layer the
    handlers consume. The layer's own package is not part of this model;
    only the fields the handlers read or write appear here. */
module Repository {
  import opened Strconv

  /** A row of the users table. */
  datatype User = User(id: int32, email: string)

  /** Go's zero value of a User, which a failed lookup leaves behind. */
  const ZeroUser: User := User(0, "")

  /** A row of the workspaces table. */
  datatype Workspace = Workspace(id: int32, name: string, owner: int32)

  datatype CreateWorkspaceParams = CreateWorkspaceParams(name: string, owner: int32)

  datatype DeleteWorkspaceWithIdParams = DeleteWorkspaceWithIdParams(owner: int32, id: int32)

  /** Result of FindUserWithEmail: the row, "no rows", or another error. */
  datatype Lookup = Found(user: User) | NoRows | LookupFailed

  /** Result of CreateWorkspace: the row, a unique-constraint violation,
      or another error. */
  datatype CreateOutcome = Created(workspace: Workspace) | UniqueViolation | CreateFailed

  /** Result of DeleteWorkspaceWithId. */
  datatype DeleteOutcome = Deleted | DeleteNoRows | DeleteFailed

  /** Result of ListUserWorkspaces. */
  datatype ListOutcome = Listed(workspaces: seq<Workspace>) | ListFailed
}

=== FILE: strconv.dfy ===
/** Decimal conversion as Go's `strconv.Atoi` performs it on a 64-bit
    platform, its inverse `Itoa`, and Go's `int32(...)` narrowing
    conversion. */
module Strconv {
  import opened Common

  const MaxUint64: int := 0xFFFF_FFFF_FFFF_FFFF
  const MinInt64: int := -0x8000_0000_0000_0000
  const MaxInt64: int := 0x7FFF_FFFF_FFFF_FFFF
  const MinInt32: int := -0x8000_0000
  const MaxInt32: int := 0x7FFF_FFFF
  const TwoTo32: int := 0x1_0000_0000

  type int32 = x: int | MinInt32 <= x <= MaxInt32

  /** The two failures strconv reports: `ErrSyntax` and `ErrRange`. */
  datatype NumError = InvalidSyntax | OutOfRange

  predicate IsDigit(c: char)
  {
    '0' <= c <= '9'
  }

  function DigitValue(c: char): nat
    requires IsDigit(c)
  {
    c as int - '0' as int
  }

  function DigitChar(d: nat): char
    requires d < 10
  {
    ('0' as int + d) as char
  }

  predicate AllDigits(s: string)
  {
    forall i :: 0 <= i < |s| ==> IsDigit(s[i])
  }

  /** Reference value of a digit string read left to right, starting from
      the already accumulated value `acc`. */
  function Accumulate(acc: nat, s: string): nat
    requires AllDigits(s)
    decreases |s|
  {
    if |s| == 0 then acc
    else Accumulate(acc * 10 + DigitValue(s[0]), s[1..])
  }

  /** The digit loop of `ParseUint` for base 10 and 64 bits: the first
      non-digit is a syntax error and the first digit that would carry the
      running value past the largest uint64 is a range error, whichever
      comes first. */
  function ScanUint(acc: nat, s: string): (r: Result<nat, NumError>)
    requires acc <= MaxUint64
    ensures r.Ok? ==> acc <= r.value <= MaxUint64
    decreases |s|
  {
    if |s| == 0 then Ok(acc)
    else if !IsDigit(s[0]) then Err(InvalidSyntax)
    else if acc * 10 + DigitValue(s[0]) > MaxUint64 then Err(OutOfRange)
    else ScanUint(acc * 10 + DigitValue(s[0]), s[1..])
  }

  /** The digits of `s` once an optional leading sign is dropped. */
  function Unsigned(s: string): string
  {
    if |s| > 0 && (s[0] == '+' || s[0] == '-') then s[1..] else s
  }

  predicate IsNegative(s: string)
  {
    |s| > 0 && s[0] == '-'
  }

  /** `strconv.Atoi`: an optional sign followed by at least one decimal
      digit (leading zeros allowed, no underscores, no spaces), whose value
      must fit in a 64-bit int. */
  function Atoi(s: string): (r: Result<int, NumError>)
    ensures r.Ok? ==> MinInt64 <= r.value <= MaxInt64
    ensures r.Ok? && r.value < 0 ==> IsNegative(s)
  {
    var digits := Unsigned(s);
    if |digits| == 0 then Err(InvalidSyntax)
    else match ScanUint(0, digits)
      case Err(e) => Err(e)
      case Ok(u) =>
        if !IsNegative(s) && u > MaxInt64 then Err(OutOfRange)
        else if IsNegative(s) && u > -MinInt64 then Err(OutOfRange)
        else Ok(if IsNegative(s) then -(u as int) else u)
  }

  /** The text of the error `Atoi` reports for the input `s`. The input
      is quoted as is: Go's escaping of quotes, backslashes and
      non-printable characters is not modelled. */
  function AtoiErrorText(s: string, e: NumError): (text: string)
    ensures "strconv.Atoi: parsing \"" + s + "\": " <= text
  {
    "strconv.Atoi: parsing \"" + s + "\": "
      + (match e
         case InvalidSyntax => "invalid syntax"
         case OutOfRange => "value out of range")
  }

  /** Reference reading of a well-formed decimal: sign and digits. */
  predicate IsDecimal(s: string)
  {
    |Unsigned(s)| > 0 && AllDigits(Unsigned(s))
  }

  function DecimalValue(s: string): int
    requires IsDecimal(s)
  {
    var u := Accumulate(0, Unsigned(s));
    if IsNegative(s) then -(u as int) else u
  }

  /** Decimal digits of a natural number, most significant first. */
  function NatDigits(n: nat): (s: string)
    ensures |s| > 0 && AllDigits(s)
    decreases n
  {
    if n < 10 then [DigitChar(n)] else NatDigits(n / 10) + [DigitChar(n % 10)]
  }

  /** `strconv.Itoa`: the inverse of `Atoi` on 64-bit ints. */
  function Itoa(n: int): string
  {
    if n < 0 then "-" + NatDigits(-n) else NatDigits(n)
  }

  /** `int32(x)`: keep the low 32 bits as a two's-complement value. */
  function Int32(x: int): (r: int32)
    ensures (x - r) % TwoTo32 == 0
  {
    (x - MinInt32) % TwoTo32 + MinInt32
  }

  // ---------------------------------------------------------------------
  // Lemmas

  lemma {:induction false} AccumulateAtLeast(acc: nat, s: string)
    requires AllDigits(s)
    ensures Accumulate(acc, s) >= acc
    decreases |s|
  {
    if |s| > 0 {
      AccumulateAtLeast(acc * 10 + DigitValue(s[0]), s[1..]);
    }
  }

  /** The scan succeeds exactly on digit strings whose value fits in a
      uint64, and then yields that value. */
  lemma {:induction false} ScanUintSpec(acc: nat, s: string)
    requires acc <= MaxUint64
    ensures ScanUint(acc, s).Ok? <==> AllDigits(s) && Accumulate(acc, s) <= MaxUint64
    ensures ScanUint(acc, s).Ok? ==> ScanUint(acc, s).value == Accumulate(acc, s)
    decreases |s|
  {
    if |s| > 0 && IsDigit(s[0]) {
      var next := acc * 10 + DigitValue(s[0]);
      if AllDigits(s) {
        assert AllDigits(s[1..]);
        AccumulateAtLeast(next, s[1..]);
      }
      if next <= MaxUint64 {
        ScanUintSpec(next, s[1..]);
        assert AllDigits(s[1..]) ==> AllDigits(s) by {
          if AllDigits(s[1..]) {
            forall i | 0 <= i < |s| ensures IsDigit(s[i]) {
              if i > 0 { assert s[i] == s[1..][i - 1]; }
            }
          }
        }
      }
    }
  }

  /** `Atoi` accepts exactly the well-formed decimals whose value is a
      64-bit int, and returns that value. */
  lemma AtoiSpec(s: string)
    ensures Atoi(s).Ok? <==> IsDecimal(s) && MinInt64 <= DecimalValue(s) <= MaxInt64
    ensures Atoi(s).Ok? ==> Atoi(s).value == DecimalValue(s)
  {
    var digits := Unsigned(s);
    if |digits| > 0 {
      ScanUintSpec(0, digits);
      if AllDigits(digits) {
        AccumulateAtLeast(0, digits);
      }
    }
  }

  lemma {:induction false} AccumulateSnoc(acc: nat, s: string, c: char)
    requires AllDigits(s) && IsDigit(c)
    ensures AllDigits(s + [c])
    ensures Accumulate(acc, s + [c]) == Accumulate(acc, s) * 10 + DigitValue(c)
    decreases |s|
  {
    if |s| > 0 {
      assert (s + [c])[1..] == s[1..] + [c];
      AccumulateSnoc(acc * 10 + DigitValue(s[0]), s[1..], c);
    }
  }

  lemma {:induction false} NatDigitsValue(n: nat)
    ensures Accumulate(0, NatDigits(n)) == n
    decreases n
  {
    if n >= 10 {
      NatDigitsValue(n / 10);
      AccumulateSnoc(0, NatDigits(n / 10), DigitChar(n % 10));
    }
  }

  /** Round trip: every 64-bit int survives formatting and parsing. */
  lemma AtoiItoa(n: int)
    requires MinInt64 <= n <= MaxInt64
    ensures Atoi(Itoa(n)) == Ok(n)
  {
    var s := Itoa(n);
    if n < 0 {
      assert Unsigned(s) == NatDigits(-n);
      NatDigitsValue(-n);
    } else {
      assert IsDigit(NatDigits(n)[0]);
      assert Unsigned(s) == NatDigits(n);
      NatDigitsValue(n);
    }
    AtoiSpec(s);
  }

  /** Narrowing keeps every int32 as it is. */
  lemma Int32Identity(x: int)
    requires MinInt32 <= x <= MaxInt32
    ensures Int32(x) == x
  {
  }

  /** Narrowing sends x to 0 exactly when x is a multiple of 2^32. */
  lemma Int32Zero(x: int)
    ensures Int32(x) == 0 <==> x % TwoTo32 == 0
  {
  }

  /** The digit loop never reports a syntax error on a string of digits. */
  lemma {:induction false} ScanDigitsNoSyntax(acc: nat, s: string)
    requires acc <= MaxUint64 && AllDigits(s)
    ensures ScanUint(acc, s) != Err(InvalidSyntax)
    decreases |s|
  {
    if |s| > 0 && acc * 10 + DigitValue(s[0]) <= MaxUint64 {
      ScanDigitsNoSyntax(acc * 10 + DigitValue(s[0]), s[1..]);
    }
  }

  /** A positive decimal beyond the largest int64 is a range error, not a
      syntax error, however many digits it has. */
  lemma AtoiOutOfRange(n: int)
    requires MaxInt64 < n
    ensures Atoi(NatDigits(n)) == Err(OutOfRange)
  {
    var s := NatDigits(n);
    assert IsDigit(s[0]);
    assert Unsigned(s) == s;
    NatDigitsValue(n);
    ScanUintSpec(0, s);
    if n > MaxUint64 {
      ScanDigitsNoSyntax(0, s);
      var r := ScanUint(0, s);
      assert !r.Ok? && r != Err(InvalidSyntax);
      assert r.error == OutOfRange;
    }
  }

  /** The error text identifies both the input and the kind of failure:
      two texts are equal only for the same input and the same error. */
  lemma AtoiErrorTextIdentifies(s1: string, e1: NumError, s2: string, e2: NumError)
    requires AtoiErrorText(s1, e1) == AtoiErrorText(s2, e2)
    ensures s1 == s2 && e1 == e2
  {
    var t := AtoiErrorText(s1, e1);
    var p := "strconv.Atoi: parsing \"";
    if e1 == e2 {
      assert t[|p|..|p| + |s1|] == s1;
      assert t[|p|..|p| + |s2|] == s2;
    } else {
      ReasonsDiffer(p + s1 + "\": ", p + s2 + "\": ");
    }
  }

  /** The two reasons cannot end the same text. */
  lemma ReasonsDiffer(x: string, y: string)
    ensures x + "invalid syntax" != y + "value out of range"
    ensures x + "value out of range" != y + "invalid syntax"
  {
    var a, b := x + "invalid syntax", y + "value out of range";
    if |a| == |b| {
      assert a[|a| - 14] == 'i' && b[|b| - 14] == 'e';
    }
    var c, d := x + "value out of range", y + "invalid syntax";
    if |c| == |d| {
      assert c[|c| - 14] == 'e' && d[|d| - 14] == 'i';
    }
  }

  /** Concrete readings of the kind the handlers and readers meet. */
  lemma AtoiExamples()
    ensures Atoi("8090") == Ok(8090)
    ensures Atoi("+8090") == Ok(8090)
    ensures Atoi("007") == Ok(7)
    ensures Atoi("-1") == Ok(-1)
    ensures Atoi("") == Err(InvalidSyntax)
    ensures Atoi("-") == Err(InvalidSyntax)
    ensures Atoi("80a") == Err(InvalidSyntax)
    ensures Atoi(" 80") == Err(InvalidSyntax)
  {
    assert ScanUint(80, "a") == Err(InvalidSyntax);
    assert ScanUint(8, "0a") == Err(InvalidSyntax);
  }
}

=== FILE: workspaces.dfy ===
/** The workspace handlers: create, delete and list the signed-in user's
    workspaces. Each runs behind the session gate, which has already put
    the user's int32 id in the request context; the repository's answers
    are handed in as outcome values, and each handler reports the call it
    made so that the arguments it passes can be stated. */
module Workspaces {
  import opened Common
  import opened Strconv
  import opened Repository
  import opened Http
  import Auth

  const NameProblem: string := "Name must be at least 2 characters long"

  /** The bound request body. */
  datatype PostWorkspaceForm = PostWorkspaceForm(name: string)

  /** A body that fails to bind leaves the form's zero value. */
  function BindForm(bound: Option<string>): (f: PostWorkspaceForm)
    ensures f.name == "" <==> bound.None? || bound == Some("")
  {
    match bound
    case Some(name) => PostWorkspaceForm(name)
    case None => PostWorkspaceForm("")
  }

  // ---------------------------------------------------------------------
  // valid

  /** valid as written: Go's `len` counts UTF-8 bytes, and a name of at
      most two bytes is reported. */
  function Valid(f: PostWorkspaceForm): (problems: map<string, string>)
    ensures problems.Keys <= {"name"}
    ensures "name" in problems <==> Utf8Len(f.name) <= 2
    ensures "name" in problems ==> problems["name"] == NameProblem
  {
    if Utf8Len(f.name) <= 2 then map["name" := NameProblem] else map[]
  }

  /** The accepted cases of the handler's own tests. */
  lemma ValidExamples()
    ensures Valid(PostWorkspaceForm("test")) == map[]
    ensures Valid(PostWorkspaceForm("")) == map["name" := "Name must be at least 2 characters long"]
  {
  }

  /** As written, valid contradicts its own message both ways: a two-letter
      name is refused, and a one-character name whose encoding takes three
      bytes is let through. */
  lemma ValidDisagreesWithMessage()
    ensures |"ab"| == 2 && "name" in Valid(PostWorkspaceForm("ab"))
    ensures |"€"| == 1 && Valid(PostWorkspaceForm("€")) == map[]
  {
    assert Utf8Len("ab") == 2;
    assert Utf8Len("€") == 3;
  }

  /** The check the message describes: a name of fewer than two characters
      (code points, not bytes) is reported. */
  function ValidFixed(f: PostWorkspaceForm): (problems: map<string, string>)
    ensures problems.Keys <= {"name"}
    ensures "name" in problems ==> problems["name"] == NameProblem
  {
    if |f.name| < 2 then map["name" := NameProblem] else map[]
  }

  /** The corrected check accepts exactly the names of at least two
      characters, and agrees with valid on every ASCII name whose length is
      not two. */
  lemma ValidFixedMatchesMessage(f: PostWorkspaceForm)
    ensures ValidFixed(f) == map[] <==> |f.name| >= 2
    ensures (forall i :: 0 <= i < |f.name| ==> f.name[i] as int < 0x80) && |f.name| != 2
            ==> ValidFixed(f) == Valid(f)
  {
  }

  // ---------------------------------------------------------------------
  // postWorkspaceHandler

  /** The replies written and the creation call made, if any. */
  datatype PostResult = PostResult(replies: seq<Reply>, call: Option<CreateWorkspaceParams>)

  function DuplicateNameMessage(name: string): string
  {
    "workspace named " + name + " already exists"
  }

  /** The shared body of the create handler; `returnAfterDuplicate` says
      whether the duplicate-name reply ends the request. */
  function PostWith(userId: int32, bound: Option<string>, outcome: CreateOutcome,
                    returnAfterDuplicate: bool): (r: PostResult)
    ensures 1 <= |r.replies| <= 2
    ensures r.call.Some? <==> Valid(BindForm(bound)) == map[]
    ensures r.call.Some? ==> r.call.value == CreateWorkspaceParams(BindForm(bound).name, userId)
    ensures r.call.None? ==> r.replies == [Json(400, Problems(Valid(BindForm(bound))))]
    ensures r.replies[0].status == 200 <==> r.call.Some? && outcome.Created?
    ensures r.replies[0].status == 200 ==> r.replies == [Json(200, WorkspaceJson(outcome.workspace))]
    ensures |r.replies| == 2 <==> r.call.Some? && outcome.UniqueViolation? && !returnAfterDuplicate
    ensures r.call.Some? && outcome.CreateFailed? ==> r.replies == [Json(500, Message("error creating workspace"))]
    ensures r.call.Some? && outcome.UniqueViolation? ==>
      && r.replies[0] == Json(400, Message(DuplicateNameMessage(BindForm(bound).name)))
      && (!returnAfterDuplicate ==> r.replies[1] == Json(500, Message("error creating workspace")))
  {
    var form := BindForm(bound);
    var problems := Valid(form);
    if |problems| > 0 then
      PostResult([Json(StatusBadRequest, Problems(problems))], None)
    else
      var call := Some(CreateWorkspaceParams(form.name, userId));
      match outcome
      case Created(workspace) => PostResult([Json(StatusOK, WorkspaceJson(workspace))], call)
      case CreateFailed =>
        PostResult([Json(StatusInternalServerError, Message("error creating workspace"))], call)
      case UniqueViolation =>
        var duplicate := Json(StatusBadRequest, Message(DuplicateNameMessage(form.name)));
        if returnAfterDuplicate then PostResult([duplicate], call)
        else PostResult([duplicate, Json(StatusInternalServerError, Message("error creating workspace"))], call)
  }

  /** postWorkspaceHandler as written: after the duplicate-name reply the
      handler falls through to the generic 500 reply. */
  function PostWorkspace(userId: int32, bound: Option<string>, outcome: CreateOutcome): (r: PostResult)
    ensures |r.replies| >= 1
    ensures r.call.Some? <==> Valid(BindForm(bound)) == map[]
    ensures r.call.Some? ==> r.call.value.owner == userId && r.call.value.name == BindForm(bound).name
    ensures r.replies[0].status == 200 <==> r.call.Some? && outcome.Created?
    ensures |r.replies| == 2 <==> r.call.Some? && outcome.UniqueViolation?
    ensures r.call.None? ==> r.replies == [Json(400, Problems(Valid(BindForm(bound))))]
    ensures r.call.Some? && outcome.Created? ==> r.replies == [Json(200, WorkspaceJson(outcome.workspace))]
    ensures r.call.Some? && outcome.CreateFailed? ==> r.replies == [Json(500, Message("error creating workspace"))]
    ensures r.call.Some? && outcome.UniqueViolation? ==>
      r.replies == [Json(400, Message(DuplicateNameMessage(BindForm(bound).name))),
                    Json(500, Message("error creating workspace"))]
  {
    PostWith(userId, bound, outcome, false)
  }

  /** A body that does not bind leaves the empty name, which valid
      refuses: the handler answers 400 and creates nothing. */
  lemma UnboundBodyRefused(userId: int32, outcome: CreateOutcome)
    ensures var r := PostWorkspace(userId, None, outcome);
      && r.call.None?
      && r.replies == [Json(400, Problems(map["name" := NameProblem]))]
  {
    assert Valid(BindForm(None)) == map["name" := NameProblem];
  }

  /** A duplicate name, as written, produces two writes: the client sees
      status 400, followed in the body by the 500 message. */
  lemma DuplicateNameWritesTwice(userId: int32, name: string)
    requires Valid(PostWorkspaceForm(name)) == map[]
    ensures var r := PostWorkspace(userId, Some(name), UniqueViolation);
      && r.replies == [Json(400, Message("workspace named " + name + " already exists")),
                       Json(500, Message("error creating workspace"))]
      && EffectiveStatus(r.replies) == 400
  {
  }

  /** The handler with the missing return restored. */
  function PostWorkspaceFixed(userId: int32, bound: Option<string>, outcome: CreateOutcome): (r: PostResult)
    ensures |r.replies| == 1
    ensures r.call.Some? && outcome.UniqueViolation? ==>
      r.replies == [Json(400, Message(DuplicateNameMessage(BindForm(bound).name)))]
    ensures !outcome.UniqueViolation? ==> r == PostWorkspace(userId, bound, outcome)
  {
    PostWith(userId, bound, outcome, true)
  }

  /** A request the gate lets through never creates an ownerless
      workspace: the owner is the non-zero id of the session. */
  lemma GatedPostOwnedBySessionUser(session: Auth.SessionValue, bound: Option<string>, outcome: CreateOutcome)
    requires Auth.AuthMiddleware(session).Proceed?
    ensures var r := PostWorkspace(Auth.AuthMiddleware(session).user, bound, outcome);
      r.call.Some? ==> r.call.value.owner != 0
                       && (r.call.value.owner - Auth.GetInt(session)) % TwoTo32 == 0
  {
  }

  // ---------------------------------------------------------------------
  // deleteWorkspaceHandler

  /** The reply written and the deletion call made, if any. */
  datatype DeleteResult = DeleteResult(reply: Reply, call: Option<DeleteWorkspaceWithIdParams>)

  /** The status each repository answer maps to. */
  function DeleteStatus(outcome: DeleteOutcome): int
  {
    match outcome
    case Deleted => 200
    case DeleteNoRows => 404
    case DeleteFailed => 500
  }

  /** The shared body of the delete handler; `parse` reads the id. */
  function DeleteWith(userId: int32, id: Result<int32, NumError>, outcome: DeleteOutcome): (r: DeleteResult)
    ensures r.call.Some? <==> id.Ok?
    ensures r.call.Some? ==> r.call.value == DeleteWorkspaceWithIdParams(userId, id.value)
    ensures r.call.None? ==> r.reply == Json(400, Message("invalid ID param"))
    ensures r.call.Some? ==> r.reply.status == DeleteStatus(outcome)
    ensures r.call.Some? && outcome.DeleteNoRows? ==> r.reply == Json(404, Message("workspace not found"))
    ensures r.call.Some? && outcome.DeleteFailed? ==> r.reply == Json(500, Message("error removing workspace"))
    ensures r.call.Some? && outcome.Deleted? ==> r.reply == Json(200, NoBody)
  {
    match id
    case Err(_) => DeleteResult(Json(StatusBadRequest, Message("invalid ID param")), None)
    case Ok(workspaceId) =>
      var call := Some(DeleteWorkspaceWithIdParams(userId, workspaceId));
      match outcome
      case DeleteNoRows => DeleteResult(Json(StatusNotFound, Message("workspace not found")), call)
      case DeleteFailed => DeleteResult(Json(StatusInternalServerError, Message("error removing workspace")), call)
      case Deleted => DeleteResult(Json(StatusOK, NoBody), call)
  }

  /** The id as written: Atoi, then narrowed to int32. */
  function ParseIdAsWritten(idParam: string): (r: Result<int32, NumError>)
    ensures r.Ok? <==> Atoi(idParam).Ok?
    ensures r.Ok? ==> (r.value - Atoi(idParam).value) % TwoTo32 == 0
  {
    match Atoi(idParam)
    case Err(e) => Err(e)
    case Ok(n) => Ok(Int32(n))
  }

  /** deleteWorkspaceHandler as written. */
  function DeleteWorkspace(userId: int32, idParam: string, outcome: DeleteOutcome): (r: DeleteResult)
    ensures r.call.Some? <==> Atoi(idParam).Ok?
    ensures r.call.Some? ==> r.call.value.owner == userId
    ensures r.call.Some? ==> (r.call.value.id - Atoi(idParam).value) % TwoTo32 == 0
    ensures r.call.None? ==> r.reply == Json(400, Message("invalid ID param"))
    ensures r.call.Some? ==> r.reply.status == DeleteStatus(outcome)
    ensures r.call.Some? && outcome.DeleteNoRows? ==> r.reply == Json(404, Message("workspace not found"))
    ensures r.call.Some? && outcome.DeleteFailed? ==> r.reply == Json(500, Message("error removing workspace"))
    ensures r.call.Some? && outcome.Deleted? ==> r.reply == Json(200, NoBody)
  {
    DeleteWith(userId, ParseIdAsWritten(idParam), outcome)
  }

  /** Every int32 id, written in decimal, deletes exactly that workspace of
      the caller. */
  lemma DeleteTargetsNamedWorkspace(userId: int32, id: int32, outcome: DeleteOutcome)
    ensures DeleteWorkspace(userId, Itoa(id), outcome).call == Some(DeleteWorkspaceWithIdParams(userId, id))
  {
    AtoiItoa(id);
    Int32Identity(id);
  }

  /** As written, an id beyond the int32 range is not refused: it wraps
      around, so the id k + 2^32 deletes the caller's workspace k. */
  lemma OutOfRangeIdAliases(userId: int32, k: int32, outcome: DeleteOutcome)
    ensures k + TwoTo32 > MaxInt32
    ensures DeleteWorkspace(userId, Itoa(k + TwoTo32), outcome).call
            == Some(DeleteWorkspaceWithIdParams(userId, k))
  {
    AtoiItoa(k + TwoTo32);
    assert Int32(k + TwoTo32) == k;
  }

  /** The id read as a 32-bit integer, as ParseInt with bit size 32 would:
      a value outside the int32 range is an error. */
  function ParseIdFixed(idParam: string): (r: Result<int32, NumError>)
    ensures r.Ok? <==> Atoi(idParam).Ok? && MinInt32 <= Atoi(idParam).value <= MaxInt32
    ensures r.Ok? ==> r.value == Atoi(idParam).value
  {
    match Atoi(idParam)
    case Err(e) => Err(e)
    case Ok(n) => if MinInt32 <= n <= MaxInt32 then Ok(n) else Err(OutOfRange)
  }

  /** The handler with the id range-checked instead of wrapped. */
  function DeleteWorkspaceFixed(userId: int32, idParam: string, outcome: DeleteOutcome): (r: DeleteResult)
    ensures r.call.Some? ==> Atoi(idParam) == Ok(r.call.value.id as int) && r.call.value.owner == userId
    ensures r.call.None? ==> r.reply == Json(400, Message("invalid ID param"))
  {
    DeleteWith(userId, ParseIdFixed(idParam), outcome)
  }

  /** The corrected handler deletes only the workspace the request names,
      and differs from the original only on ids outside the int32 range. */
  lemma DeleteFixedAgreesInRange(userId: int32, idParam: string, outcome: DeleteOutcome)
    ensures Atoi(idParam).Ok? && MinInt32 <= Atoi(idParam).value <= MaxInt32
            ==> DeleteWorkspaceFixed(userId, idParam, outcome) == DeleteWorkspace(userId, idParam, outcome)
    ensures Atoi(idParam).Ok? && !(MinInt32 <= Atoi(idParam).value <= MaxInt32)
            ==> DeleteWorkspaceFixed(userId, idParam, outcome).call.None?
  {
    if Atoi(idParam).Ok? && MinInt32 <= Atoi(idParam).value <= MaxInt32 {
      Int32Identity(Atoi(idParam).value);
    }
  }

  // ---------------------------------------------------------------------
  // getWorkspacesHandler

  /** The reply written and the owner whose workspaces were listed. */
  datatype GetResult = GetResult(reply: Reply, owner: int32)

  /** getWorkspacesHandler; the 500 message keeps the source's spelling. */
  function GetWorkspaces(userId: int32, outcome: ListOutcome): (r: GetResult)
    ensures r.owner == userId
    ensures r.reply.status == 200 <==> outcome.Listed?
    ensures outcome.Listed? ==> r.reply == Json(200, WorkspaceListJson(outcome.workspaces))
    ensures outcome.ListFailed? ==> r.reply == Json(500, Message("error retrieving workspacse"))
  {
    match outcome
    case Listed(workspaces) => GetResult(Json(StatusOK, WorkspaceListJson(workspaces)), userId)
    case ListFailed => GetResult(Json(StatusInternalServerError, Message("error retrieving workspacse")), userId)
  }
}
